=== FILE: README.md ===
# Quarter Value Finder — a Dafny model of its core

Quarter Value Finder is a browser application. It sends photos of US quarters
to a hosted vision model, shows the coin analyses the model returns, and keeps
a local history of past batches. This project models the application's
decision logic as pure Dafny functions over immutable datatypes and proves
properties about it:

- **Response normalisation** (`gemini.dfy`, module `GeminiService`). The
  request's output schema is written out as data, together with a
  schema-conformance predicate and a typed reading of a reply. The parsed
  reply is turned into a list by a three-way decision table: an array, a
  non-empty object, or anything else. Every failure maps to one of two
  messages. The reply text is trimmed before parsing.
- **History store** (`history.dfy`, module `HistoryManager`). This is a
  newest-first list of sessions with at most 50 entries, kept as one text
  under a fixed storage key. The value under the key is an
  `Option<string>`. JSON is an abstract encode/decode pair. Reading an image
  as a data URL is a parameter that may fail.
- **Price chart** (`chart_sort.dfy` and `chart.dfy`, modules `MonthSort` and
  `PriceChart`). It covers:
  - the stable sort by month;
  - the padded value-axis bounds;
  - the index-to-x and value-to-y maps;
  - the line and area paths;
  - five value labels and three date labels;
  - the inverse pointer lookup that drives the tooltip.

  All of this geometry is exact `real` arithmetic.
- **Results panel** (`results.dfy`, module `ResultsDisplay`). It covers:
  - the marketplace-logo classifier;
  - the confidence-badge colours;
  - the chart toggle;
  - which of the error, coin-list and no-coins panels a record shows.
- **Application shell** (`app.dfy`, module `App`). It covers:
  - image selection;
  - the analyse handler, which settles every record with the outcome for its
    own file and saves the batch;
  - the reset and clear handlers;
  - the upload / results / history view machine, with an invariant that every
    user action preserves.
- **Shared pieces**:
  - `types.dfy` (module `Types`) holds the record shapes.
  - `text.dfy` (module `Text`) holds JavaScript's `trim`, `includes` and
    `toLowerCase` restricted to ASCII, plus the decimal rendering of a number.
  - `wrappers.dfy` (module `Wrappers`) holds `Option` and `Result`.

These inputs are parameters, so every property holds for every behaviour they
might have:
- the remote model's reply (`Reply`);
- `JSON.parse` of the reply (`string -> Parsed`);
- the history's JSON (`Codec`; the save lemmas assume only that it reads back the one list the save writes, `HistoryManager.WrittenRoundTrips`);
- `FileReader`: `File -> Option<string>` for saving a batch, and a
  `FileRead` outcome (data URL, non-string result, or error event) for
  analysing one;
- the remote request for a data URL (`string -> Reply`) and how the unchecked
  `as CoinAnalysis[]` cast reads each element (`Json -> CoinAnalysis`); the
  cast keeps the array's length and order;
- for the analyse handler in general, the per-image analysis (`File -> Outcome`),
  of which `App.ClientOutcome` is the instance the application uses;
- `URL.createObjectURL` (a list of URLs);
- `Date.now()` (two clock readings);
- whether storage accepts a write (`string -> bool`);
- the month a date string denotes (`MonthKey = string -> int`);
- the SVG element's on-page box as `getBoundingClientRect` reports it
  (`SvgBox`, or none before the element is mounted).

Some behaviours of the code are worth stating plainly:

- **Out-of-range pointer.** A pointer beyond the plot keeps whatever tooltip
  was showing; it does not hide it. See `PriceChart.OnPointer` and
  `PriceChart.PointerOutsideKeepsTooltip`.
- **Pointer units.** The code takes the pointer's pixel offset as if it were
  in view-box units. The model rescales it by 500 / drawn width before the
  lookup (`PriceChart.ViewBoxOffset`), so the tooltip follows the drawn chart
  at any width. The code as written is `PriceChart.HoverIndexAsWritten`; see
  Findings.
- **Flat series.** When every value of a history is equal, the code's two
  axis bounds coincide and every y coordinate is 0/0. The model records this
  as written (`PriceChart.Bounds`, `PriceChart.FlatSeriesExample`) but draws
  with the corrected band `PriceChart.SafeBounds`, so on such a series the
  drawn chart is the corrected one, not the code's. See Findings and Left out.
- **Leaving the history view.** The history view's only way back to the
  upload view is the "Analyze New Coins" button, shown only while the history
  is empty. With saved sessions the page stays in the history view until
  they are all cleared. See `App.HistoryExitRequiresClearing`.
- **Object URLs.** Nothing ensures that each object URL is revoked exactly once.
- **Optional confidence scores.** The request schema requires `confidenceScore`
  and `valueConfidence`, but the record types keep them optional, and the
  results panel draws a badge only when one is present. The model does the same.

## Model

| member | source | states |
|---|---|---|
| `Text.Trim` | services/geminiService.ts:121 | the result is a piece of the text with only whitespace before and after it, and it neither starts nor ends with whitespace |
| `Text.TrimIgnoresPadding` | services/geminiService.ts:121 | whitespace around a text never changes what `trim` returns |
| `Text.ContainsIffOccurrence` | components/ResultsDisplay.tsx:16-19 | the left-to-right `includes` scan is true exactly when the substring occurs at some position |
| `Text.Contains` | components/ResultsDisplay.tsx:17-19 | `includes`: some start position, scanned left to right, begins with the substring (the positional meaning is `Text.ContainsIffOccurrence`) |
| `Text.ToLower` | components/ResultsDisplay.tsx:16 | the result has the text's length, and each character is that character lower-cased (ASCII letters only) |
| `Text.DecimalString` | utils/historyManager.ts:42 | `Date.now().toString()`: at least one character, all decimal digits, with a leading zero only for 0 |
| `Text.DecimalStringRoundTrip` | utils/historyManager.ts:42 | the decimal text of a clock reading used as a session id reads back as the same number |
| `GeminiService.CoinRequiredAreDeclared` | services/geminiService.ts:82 | a coin object requires eight properties, each of them declared in the schema |
| `GeminiService.CoinDeclaredAreRequired` | services/geminiService.ts:10-82 | every property a coin object declares is also required, so exactly the eight fields are required |
| `GeminiService.MarketValueSchemaRequiresEveryProperty` | services/geminiService.ts:37-61 | a marketplace entry requires all four of its properties: marketplace, url, value, valueConfidence |
| `GeminiService.HistoricalValueSchemaRequiresEveryProperty` | services/geminiService.ts:63-79 | a history entry requires its date and its value and nothing else is declared |
| `GeminiService.ConformingCoinDecodes` | services/geminiService.ts:10-82 | a coin object that satisfies the schema reads as a `CoinAnalysis` whose score and every marketplace confidence are present, so the unchecked cast is sound for such replies |
| `GeminiService.ConformingReplyKept` | services/geminiService.ts:85-89 | a reply that satisfies the array schema is returned element for element, and every element reads as a coin |
| `GeminiService.Normalise` | services/geminiService.ts:124-131 | an array is returned unchanged; a non-empty object becomes a one-element list holding it; anything else becomes the empty list |
| `GeminiService.NormaliseCount` | services/geminiService.ts:124-131 | the result has N entries for an array of N, 1 for a non-empty object, and 0 for `{}`, `null`, booleans, numbers and strings |
| `GeminiService.FailureMessage` | services/geminiService.ts:132-138 | the format message is chosen exactly when an `Error` was thrown whose message contains "JSON"; every other thrown value gets the generic failure message |
| `GeminiService.AnalyzeCoinImage` | services/geminiService.ts:121-138 | the call succeeds exactly when a text came back and it parses; success returns the normalised value; every failure carries one of the two messages |
| `GeminiService.ParseReply` | services/geminiService.ts:122-138 | a trimmed text succeeds exactly when it parses, with the normalised value; a parse error gets the format message exactly when the parser's message mentions JSON |
| `GeminiService.ParseErrorFails` | services/geminiService.ts:122-138 | a text that does not parse always fails and is never turned into an empty list; a parser message naming JSON yields the format message |
| `GeminiService.SurroundingWhitespaceIgnored` | services/geminiService.ts:121-122 | whitespace around the reply text never changes the outcome |
| `HistoryManager.GetSessions` | utils/historyManager.ts:21-29 | an absent key, the empty text and text that does not parse all read as no history; otherwise the decoded list |
| `HistoryManager.ToSaved` | utils/historyManager.ts:35-37 | a saved result keeps the result's analyses and error and holds the image as the given data URL |
| `HistoryManager.ConvertResults` | utils/historyManager.ts:33-39 | conversion succeeds exactly when every image can be read; it yields one saved result per input in order, keeping analyses and error, dropping the file and object URL, and adding the data URL |
| `HistoryManager.Prepend` | utils/historyManager.ts:47-49 | the written list starts with the new session, continues with a prefix of the old list, and has length min(old + 1, 50) |
| `HistoryManager.NewSession` | utils/historyManager.ts:41-46 | the session's id is the decimal text of the first clock reading and reads back as it; its date is the second reading; it holds one saved result per input, in order, with that input's analyses, error and data URL |
| `HistoryManager.SaveSession` | utils/historyManager.ts:31-53 | a failed image conversion leaves storage unchanged; any change is a text that storage accepted |
| `HistoryManager.SaveThenGet` | utils/historyManager.ts:21-53 | provided the codec reads back the list the save writes: after a save that writes, the history reads back as the new session followed by the previous sessions in order, cut to 50; a save that does not write changes nothing |
| `HistoryManager.FullHistoryEvictsOldest` | utils/historyManager.ts:48-49 | with a codec that reads back the written list, saving into a full history of 50 drops exactly the oldest session |
| `HistoryManager.SaveKeepsCap` | utils/historyManager.ts:49 | with a codec that reads back the written list, a history of at most 50 sessions stays within 50 after any save |
| `HistoryManager.ClearHistory` | utils/historyManager.ts:55-61 | after clearing, reading the history gives the empty list whatever the codec |
| `HistoryManager.MapSessionToDisplayableResults` | utils/historyManager.ts:64-69 | one displayable record per saved result, in order: its image is the saved data URL, and its analyses and error are the saved ones |
| `HistoryManager.SavedBatchDisplaysAsOriginal` | utils/historyManager.ts:33-69 | a saved batch shown again has the original count and order, the original analyses and errors, and each image is its file's data URL |
| `MonthSort.SortByMonth` | components/PriceChart.tsx:17-20 | the sorted series is a permutation of the input, ordered by month, and keeps the input order among points of the same month |
| `MonthSort.SortByMonthIsStableSort` | components/PriceChart.tsx:17-20 | a list is the sort's result if and only if it is ordered by month and holds each month's points in input order |
| `PriceChart.MinValue` | components/PriceChart.tsx:23-24 | the minimum is one of the values and no value is smaller |
| `PriceChart.MaxValue` | components/PriceChart.tsx:23-25 | the maximum is one of the values and no value is larger |
| `PriceChart.Bounds` | components/PriceChart.tsx:22-32 | the lower bound is never negative; the upper bound is a tenth of the range above the largest value; the lower bound is a tenth below the smallest value, or zero exactly when the smallest value is at most a tenth of the largest (11·min ≤ max); non-negative values lie inside, and lower ≤ upper when all values are non-negative |
| `PriceChart.FlatSeriesHasNoBand` | components/PriceChart.tsx:26-38 | when all values are equal the two bounds coincide, so `getY` has no band to divide by |
| `PriceChart.FlatSeriesExample` | components/PriceChart.tsx:26-38 | two months both at 5 give the bounds (5, 5) |
| `PriceChart.SafeBounds` | components/PriceChart.tsx:22-38 | the bounds drawn with always differ, equal the written bounds whenever those differ, and contain every value of a non-negative series |
| `PriceChart.GetX` | components/PriceChart.tsx:37 | every index of the series is drawn between the left padding (50) and the plot's right edge (470) |
| `PriceChart.GetY` | components/PriceChart.tsx:38 | the y coordinate maps back to the value: the band's lower bound plus the y's share of the plot height above the floor, times the band |
| `PriceChart.GetXSpacing` | components/PriceChart.tsx:9-37 | the first point is at x = 50, the last at x = 470, and consecutive points are 420/(n−1) apart |
| `PriceChart.GetXStrictlyIncreasing` | components/PriceChart.tsx:37 | a later index is always drawn further right |
| `PriceChart.GetYRange` | components/PriceChart.tsx:35-38 | the lower bound maps to y = 210, the upper to y = 20, and values in between stay between them |
| `PriceChart.GetYStrictlyDecreasing` | components/PriceChart.tsx:38 | a larger value is drawn strictly higher |
| `PriceChart.LinePath` | components/PriceChart.tsx:40-45 | the path is empty below two points; otherwise it has one vertex per point, a move first and lines after, each at that point's coordinates |
| `PriceChart.LinePathInsidePlot` | components/PriceChart.tsx:40-45 | for a non-negative series the line runs strictly left to right from x = 50 to x = 470, with every vertex inside the plot area |
| `PriceChart.AreaPath` | components/PriceChart.tsx:47-51 | the area is empty below two points; otherwise it is the line followed by a drop to the floor, a run to the left edge and a close |
| `PriceChart.YAxisLabels` | components/PriceChart.tsx:53-62 | exactly five labels, the first at the lower bound and the last at the upper, a quarter of the band apart |
| `PriceChart.YAxisLabelsSpanPlot` | components/PriceChart.tsx:53-62 | the labels run from the plot floor (210) to its top (20), a quarter of the plot height apart |
| `PriceChart.FindDate` | components/PriceChart.tsx:68 | the result is the first position holding the date, or −1 when none does |
| `PriceChart.LabelFor` | components/PriceChart.tsx:67-70 | a date label sits at the x of the first point with that date |
| `PriceChart.XAxisLabels` | components/PriceChart.tsx:64-71 | no labels below two points; otherwise three, for the first, middle (index ⌊n/2⌋) and last points |
| `PriceChart.XAxisLabelPositions` | components/PriceChart.tsx:64-71 | the first label is at the left edge; with distinct dates the middle and last labels are at their own points, the last at the right edge |
| `PriceChart.Round` | components/PriceChart.tsx:78 | `Math.round` gives the integer within half a unit below or above, rounding halves up |
| `PriceChart.HoverIndex` | components/PriceChart.tsx:78 | the selected index is the point whose x lies within half a step of the pointer's view-box offset |
| `PriceChart.HoverSelectsNearestPoint` | components/PriceChart.tsx:73-80 | a pointer within half a step of point i selects i |
| `PriceChart.HoverAtPoint` | components/PriceChart.tsx:78 | hovering exactly at a point's x selects that point |
| `PriceChart.ViewBoxOffset` | components/PriceChart.tsx:75-76 | the pointer's pixel offset from the element's left edge, scaled by 500 / drawn width into the units of the 500-wide view box; unchanged when the chart is drawn 500 pixels wide |
| `PriceChart.ScreenX` | components/PriceChart.tsx:37 | where a point appears on the page; at a drawn width of 500 pixels, the element's left edge plus `getX` |
| `PriceChart.HoverIndexAsWritten` | components/PriceChart.tsx:75-78 | the lookup on the unscaled pixel offset agrees with the rescaled lookup when the chart is drawn 500 pixels wide |
| `PriceChart.PixelOffsetExample` | components/PriceChart.tsx:75-78 | on a chart drawn 1000 pixels wide, the pointer over the first of twelve points (at 100 px) selects the second point in the code as written |
| `PriceChart.HoverAtDrawnPoint` | components/PriceChart.tsx:73-78 | with the rescaled offset, the pointer over a drawn point selects that point, whatever the drawn width |
| `PriceChart.OnPointer` | components/PriceChart.tsx:73-93 | leaving clears the tooltip; a move without the SVG element, or to an index outside the series, keeps the tooltip; otherwise the tooltip shows the point under the pointer's view-box offset, at that point's coordinates, date and value |
| `PriceChart.PointerOutsideKeepsTooltip` | components/PriceChart.tsx:78-88 | a pointer whose view-box offset is more than half a step left of the first point or right of the last leaves the tooltip as it was |
| `PriceChart.Render` | components/PriceChart.tsx:95-99 | the placeholder is shown exactly when there are fewer than two points; otherwise the chart has one vertex per point, five value labels and three date labels |
| `PriceChart.RenderDependsOnlyOnMonths` | components/PriceChart.tsx:17-20 | two histories that hold the same points in each month, in the same order within the month, draw the same chart |
| `PriceChart.RenderDateAxisSpansMonths` | components/PriceChart.tsx:17-71 | whatever order the points arrive in, the first date label is at the earliest month of the history and the last at the latest |
| `ResultsDisplay.GetMarketplaceIcon` | components/ResultsDisplay.tsx:15-21 | on the lower-cased name, "ebay" wins, then "heritage", then "apmex" or "jm bullion"; any other name is shown as written |
| `ResultsDisplay.IconIgnoresCase` | components/ResultsDisplay.tsx:16 | a name and its lower-cased form get the same logo |
| `ResultsDisplay.KeywordGetsLogo` | components/ResultsDisplay.tsx:17-19 | a name containing, in any letter case, one of the four keywords anywhere gets a logo |
| `ResultsDisplay.ConfidenceTier` | components/ResultsDisplay.tsx:23-30 | green from 0.8, yellow from 0.6 up to 0.8, red below 0.6; the three tiers partition all scores |
| `ResultsDisplay.ConfidenceTierMonotone` | components/ResultsDisplay.tsx:25-30 | a higher score never gets a lower tier |
| `ResultsDisplay.Badge` | components/ResultsDisplay.tsx:48 | a badge appears exactly when the score is present, coloured by its tier |
| `ResultsDisplay.HasHistoricalData` | components/ResultsDisplay.tsx:40 | a coin has a trend to show when its history has more than one point |
| `ResultsDisplay.MarketRowFor` | components/ResultsDisplay.tsx:68-89 | a marketplace link shows that marketplace's logo, a badge exactly when its confidence is present, its quoted value and its URL |
| `ResultsDisplay.CoinResult` | components/ResultsDisplay.tsx:38-104 | the coin's badge appears exactly when its score is present; the chart button appears exactly when there is more than one history point, reading "Hide 12-Month Price Trend" when open and "Show 12-Month Price Trend" when closed; the chart shows exactly when, in addition, it is toggled on, and draws the coin's own history; each market row gets its logo and badge |
| `ResultsDisplay.ToggleChart` | components/ResultsDisplay.tsx:96 | each click flips `showChart` |
| `ResultsDisplay.OpenedChartIsDrawn` | components/ResultsDisplay.tsx:93-102 | a chart opened from a coin card always has data to draw, never the placeholder; two clicks restore the card |
| `ResultsDisplay.CoinNoun` | components/ResultsDisplay.tsx:129 | "Coin" for exactly one analysis, "Coins" for more |
| `ResultsDisplay.ShowRecord` | components/ResultsDisplay.tsx:120-142 | the error panel shows exactly when the error is non-empty; the heading and coin list exactly when analyses are non-empty; the no-coins notice exactly when analyses are the empty list |
| `ResultsDisplay.OnePanelPerSettledRecord` | components/ResultsDisplay.tsx:120-142 | a finished record shows exactly one panel and a pending record none |
| `ResultsDisplay.ShowResults` | components/ResultsDisplay.tsx:113-146 | one view per record, in order, numbered by position |
| `App.ResetState` | App.tsx:87-95 | selection, error and loading flag are cleared; the view becomes upload only when asked |
| `App.HandleClearSelection` | App.tsx:97-100 | the selection is cleared and nothing else changes |
| `App.HandleImageSelect` | App.tsx:20-28 | one pending record per file, in order, with its own object URL, no analyses and no error; the view is kept |
| `App.ErrorMessage` | App.tsx:70 | an `Error` keeps its message; any other thrown value becomes "An unknown error occurred." |
| `App.Settle` | App.tsx:64-73 | a settled record keeps its image URL and file, and carries either the analyses and no error, or no analyses and the error message |
| `App.SettleAll` | App.tsx:64-76 | the settled list has the selection's length and order, and every record has finished |
| `App.HandleAnalyze` | App.tsx:55-85 | with no selection only the global error is set, storage is untouched and nothing is sent; otherwise each file is sent once in order, the settled batch is saved whole, and the results view shows with loading off |
| `App.ClientOutcome` | App.tsx:37-73 | an image is analysed exactly when the file reads as a data-URL string and the client succeeds on it, and then it holds one coin per element of the client's list, in order; every failure's message is one of the two client messages, "Failed to read file as data URL.", or, for the reader's error event, "An unknown error occurred." |
| `App.ClientFailuresAreShown` | App.tsx:64-73 | whatever the file read and the reply, the settled record shows exactly one panel, and a failed one shows its message |
| `App.ClientCoinsAreTheReply` | App.tsx:64-68 | when the client succeeds, the record lists one coin per element of the reply's list, in order; the "Found N coins" heading shows exactly when that list is non-empty and the no-coins notice exactly when it is empty; no error panel shows |
| `App.ConformingReplyShowsDecodedCoins` | App.tsx:64-68 | a reply whose text parses to an array satisfying the schema is shown as exactly that many coins, each the typed reading of its element |
| `App.AnalyzedBatchShowsEveryOutcome` | App.tsx:55-85 | after an analysis, the results view has one view per selected image, each with exactly one panel |
| `App.ToDisplayable` | types.ts:32-37 | the displayed record is the result without its file |
| `App.Enabled` | App.tsx:114-179 | which actions the page offers in each view: selecting a non-empty list of images while nothing is selected, then analysing and clearing the selection, in the upload view; "Analyze More Coins" in results; the header's history button always; in the history view a button per saved session, "Clear History" only with sessions, "Analyze New Coins" only without, and "Back to History" with a session open |
| `App.Step` | App.tsx:114-179 | the history button opens the history view with no session open; the back button and "Analyze More Coins" return to upload; opening a saved session shows that session; clearing leaves an empty history; analysing shows results; only analysing and clearing touch storage |
| `App.HistoryExitRequiresClearing` | components/HistoryView.tsx:46-74 | while saved sessions exist, every offered action keeps the page in the history view and storage unchanged, except clearing, after which the way back is offered |
| `App.InitialStateValid` | App.tsx:15-18 | the initial state satisfies the invariant |
| `App.StepPreservesValid` | App.tsx:55-100 | every offered action keeps the invariant: nothing loading, no record both analysed and failed, every record finished on the results view, and a saved session open only in the history view |

## Left out

- The remote call to the vision model is left out, with its API-key check,
  prompt text, model name and temperature. It is a foreign service, so its
  reply is the `Reply` parameter.
- `JSON.parse` and `JSON.stringify` are parameters. Two JavaScript behaviours
  fall outside them:
  - Stored history text that parses to something other than a list is not
    modelled; the history decoder either yields a session list or fails.
  - The `as CoinAnalysis[]` cast is unchecked, so the reply's elements stay
    JSON values. The analyse handler reads each element through a `cast`
    parameter. `ConformingCoinDecodes` shows they read as coins when the
    reply satisfies the schema. `App.ConformingReplyShowsDecodedCoins` assumes
    the cast agrees with that reading.
- `FileReader`, base64 and data-URL conversion are browser I/O. They are the
  `toDataUrl` parameter when saving and the `FileRead` outcome when
  analysing. The `split(',')[1]` payload extraction and the MIME type sent
  with the image are inside the remote-request parameter.
- A `localStorage.getItem` or `removeItem` that throws is not modelled. Reading
  would end in the empty list as unparsable text does, and clearing would
  leave storage as it was.
- The `Promise.all` fan-out is async concurrency and is modelled as a
  sequential map. The loading flag is therefore never seen set.
- Object-URL creation and revocation depend on React effect timing. URLs
  arrive as a parameter and revocation is not modelled.
- The `toFixed` and `toLocaleString` labels, percentage text and tooltip box
  placement are number formatting and locale behaviour, and are left out.
- Dates are not parsed. Points are ordered by an abstract month key, and
  strings that do not parse as dates (`NaN` in the comparator) are not
  modelled.
- `PriceChart.Render` draws with the corrected band `PriceChart.SafeBounds`.
  On a flat series it therefore draws a level line where the code computes
  0/0 for every y; `PriceChart.LinePathInsidePlot` likewise describes the
  corrected chart. The code's own bounds are `PriceChart.Bounds` (see Findings).
- `PriceChart.LinePathInsidePlot`: describes the chart drawn with
  `PriceChart.SafeBounds`, not the code's `PriceChart.Bounds`. On a flat series
  the code's vertices have NaN y coordinates and lie nowhere.
- `PriceChart.OnPointer`: rescales the pointer offset into view-box units
  (see Findings). An element reported with zero width keeps the tooltip; the
  code would divide by nothing there, since it never rescales.
- `PriceChart.Bounds` requires a non-empty series. An empty series gives
  infinite bounds, which the chart computes but never draws.
- `PriceChart.OnPointer` requires at least two points. The handler exists only
  on the drawn chart.
- `PriceChart.GetY` requires the bounds to differ. The code does not guard
  this; see Findings.
- The `console.error` calls are diagnostic output only and are left out.
  They sit in the client's `catch` block (services/geminiService.ts:133) and
  in the history store's reading, saving and clearing (utils/historyManager.ts:26,
  51 and 59).
- Scores and prices are `real`, so `NaN` and `Infinity` values are not
  modelled.
- `Text.ToLower` lowers ASCII letters only. For the four marketplace keywords
  this gives the same answers as full Unicode lowering.
- These are presentation only and are left out: JSX markup, styling, icons,
  the drag-and-drop uploader and the "Analyze N Images" button text.
- The confirm dialog before clearing the history is taken as confirmed:
  `ClearSavedHistory` is the confirmed click, and a cancelled click changes
  nothing, so it is not an event of its own.
- The code never checks that a reply holds twelve months or at least three
  sources, so the model does not either.

## Findings

| source | as written | input that shows it | evidently intended | confidence | as-written member | corrected member |
|---|---|---|---|---|---|---|
| components/PriceChart.tsx:73-78 | `mouseX = e.clientX - svgRect.left` is in CSS pixels, but it is compared with `getX` positions in the 500-unit view box; the SVG is drawn `w-full`, so at any other width the two scales differ | a chart drawn 1000 pixels wide with twelve points: the pointer over the first point (100 px) selects the second point | the offset rescaled by 500 / `svgRect.width` before the lookup, so the tooltip shows the point under the pointer | not executed; the stretch follows from `viewBox` with `w-full h-auto` | `PriceChart.HoverIndexAsWritten` (exhibited by `PriceChart.PixelOffsetExample`) | `PriceChart.ViewBoxOffset` (proved by `PriceChart.HoverAtDrawnPoint`; used by `PriceChart.OnPointer`) |
| components/PriceChart.tsx:26-38 | with all values equal the range is 0, both bounds are that value, and `getY` divides 0 by 0, so every vertex and value label gets a NaN y | a history of two months both at 5: bounds (5, 5) | a flat series drawn as a level line inside a band of non-zero height | not executed; the 0/0 follows from the code, the width of the corrected band is a choice | `PriceChart.Bounds` (exhibited by `PriceChart.FlatSeriesExample` and `PriceChart.FlatSeriesHasNoBand`) | `PriceChart.SafeBounds` |

The drawn chart (`PriceChart.Render`) uses `SafeBounds`. It agrees with the
code whenever the written bounds differ. When they coincide, it widens the
band by one unit each way, never below zero.

=== FILE: app.dfy ===
/**
 * The application shell: the selected images and their outcomes, the global
 * error, the loading flag and the current view, with the handlers that
 * change them. The per-image analysis (reading the file and calling the
 * analysis client) is a parameter; the parallel fan-out is a sequential map,
 * so a whole analysis is one step and the loading flag is only seen false.
 */
module App {
  import opened Wrappers
  import opened Types
  import opened GeminiService
  import opened HistoryManager
  import ResultsDisplay
  import Text

  datatype View = Upload | Results | History

  datatype AppState = AppState(
    results: seq<AnalysisResult>,
    isLoading: bool,
    globalError: Option<string>,
    view: View)

  const InitialState := AppState([], false, None, Upload)
  const NoSelectionMessage := "Please select one or more images first."
  const UnknownErrorMessage := "An unknown error occurred."

  /** What analysing one image ends in: the coins found, or whatever was thrown on the way. */
  datatype Outcome = Analyzed(analyses: seq<CoinAnalysis>) | Threw(thrown: Thrown)

  /** Everything `saveSession` needs from the browser. */
  datatype Persistence = Persistence(
    toDataUrl: File -> Option<string>,
    idClock: nat,
    dateClock: nat,
    codec: Codec,
    accepts: string -> bool)

  /** A record is never both analysed and failed. */
  predicate Exclusive(r: AnalysisResult)
  {
    !(r.analyses.Some? && r.error.Some?)
  }

  /** A record whose analysis has finished: exactly one of `analyses` and `error` is set. */
  predicate Finished(r: AnalysisResult)
  {
    r.analyses.Some? != r.error.Some?
  }

  /** `resetState`: forget the selection, the error and the loading flag; go to the upload view only if asked. */
  function ResetState(s: AppState, changeView: bool): (r: AppState)
    ensures r.results == [] && r.globalError.None? && !r.isLoading
    ensures r.view == (if changeView then Upload else s.view)
  {
    AppState([], false, None, if changeView then Upload else s.view)
  }

  /** `handleClearSelection`: forget the selection and nothing else. */
  function HandleClearSelection(s: AppState): (r: AppState)
    ensures r.results == [] && r.isLoading == s.isLoading && r.globalError == s.globalError && r.view == s.view
  {
    s.(results := [])
  }

  /** `handleImageSelect`: one pending record per file, in order, each with the object URL made for it. */
  function HandleImageSelect(s: AppState, files: seq<File>, urls: seq<string>): (r: AppState)
    requires |urls| == |files|
    ensures |r.results| == |files|
    ensures forall i :: 0 <= i < |files| ==> r.results[i] == AnalysisResult(urls[i], None, None, files[i])
    ensures r.view == s.view && r.globalError.None? && !r.isLoading
  {
    var cleared := ResetState(s, false);
    cleared.(results := seq(|files|, i requires 0 <= i < |files| => AnalysisResult(urls[i], None, None, files[i])))
  }

  /** The message a failed record carries: an `Error`'s own message, or a fixed text for anything else thrown. */
  function ErrorMessage(t: Thrown): (m: string)
    ensures t.ErrorObject? ==> m == t.message
    ensures t.NonError? ==> m == UnknownErrorMessage
  {
    match t
    case ErrorObject(message) => message
    case NonError => UnknownErrorMessage
  }

  /** One record once its analysis has settled; the image URL and file are kept. */
  function Settle(r: AnalysisResult, o: Outcome): (s: AnalysisResult)
    ensures s.imageUrl == r.imageUrl && s.file == r.file
    ensures o.Analyzed? ==> s.analyses == Some(o.analyses) && s.error.None?
    ensures o.Threw? ==> s.analyses.None? && s.error == Some(ErrorMessage(o.thrown))
  {
    match o
    case Analyzed(analyses) => r.(analyses := Some(analyses), error := None)
    case Threw(t) => r.(analyses := None, error := Some(ErrorMessage(t)))
  }

  /** The fan-out and `Promise.all`: every record settled with the outcome for its own file, in selection order. */
  function SettleAll(results: seq<AnalysisResult>, analyze: File -> Outcome): (settled: seq<AnalysisResult>)
    ensures |settled| == |results|
    ensures forall i :: 0 <= i < |results| ==>
              settled[i] == Settle(results[i], analyze(results[i].file)) && Finished(settled[i])
  {
    seq(|results|, i requires 0 <= i < |results| => Settle(results[i], analyze(results[i].file)))
  }

  /** The effect of one `handleAnalyze`: the new state, the stored history, and the files sent for analysis. */
  datatype AnalyzeEffect = AnalyzeEffect(state: AppState, stored: Option<string>, requests: seq<File>)

  /**
   * `handleAnalyze`. With nothing selected it only sets the global error.
   * Otherwise every image is analysed, the settled batch (failures included)
   * is saved to the history, and the results view is shown.
   */
  function HandleAnalyze(s: AppState, analyze: File -> Outcome, stored: Option<string>, p: Persistence): (e: AnalyzeEffect)
    ensures |s.results| == 0 ==>
              e.state == s.(globalError := Some(NoSelectionMessage)) && e.stored == stored && e.requests == []
    ensures |s.results| > 0 ==>
              && |e.state.results| == |s.results| == |e.requests|
              && (forall i :: 0 <= i < |s.results| ==>
                    && e.requests[i] == s.results[i].file
                    && e.state.results[i] == Settle(s.results[i], analyze(s.results[i].file)))
              && e.stored == SaveSession(stored, e.state.results, p.toDataUrl, p.idClock, p.dateClock, p.codec, p.accepts)
              && e.state.view == Results && !e.state.isLoading && e.state.globalError.None?
  {
    if |s.results| == 0 then
      AnalyzeEffect(s.(globalError := Some(NoSelectionMessage)), stored, [])
    else
      var requests := seq(|s.results|, i requires 0 <= i < |s.results| => s.results[i].file);
      var settled := SettleAll(s.results, analyze);
      var stored' := if |settled| > 0 then SaveSession(stored, settled, p.toDataUrl, p.idClock, p.dateClock, p.codec, p.accepts)
                     else stored;
      AnalyzeEffect(AppState(settled, false, None, Results), stored', requests)
  }

  /**
   * How `FileReader` ends: `onloadend` with a data-URL string, `onloadend`
   * with a result that is not a string, or an `error` event.
   */
  datatype FileRead = DataUrl(url: string) | NotText | ReadError

  const ReadFailedMessage := "Failed to read file as data URL."

  /** The elements of the reply, each read as a coin. */
  function CastEach(v: seq<Json>, cast: Json -> CoinAnalysis): (r: seq<CoinAnalysis>)
    ensures |r| == |v| && forall i :: 0 <= i < |v| ==> r[i] == cast(v[i])
  {
    seq(|v|, i requires 0 <= i < |v| => cast(v[i]))
  }

  /**
   * The per-image promise of `handleAnalyze`: read the file, then call the
   * client. A non-string result rejects with an `Error`; an `error` event
   * rejects with the event itself, which is not an `Error`. `call` is the
   * remote request for a data URL (the base64 payload is cut out inside it).
   * The unchecked `as CoinAnalysis[]` keeps the array as it is, so `cast`
   * says only how each element is read as a coin.
   */
  function ClientOutcome(read: FileRead, call: string -> Reply, parse: string -> Parsed,
                         cast: Json -> CoinAnalysis): (o: Outcome)
    ensures o.Analyzed? <==> read.DataUrl? && AnalyzeCoinImage(call(read.url), parse).Success?
    ensures o.Analyzed? ==> var v := AnalyzeCoinImage(call(read.url), parse).value;
              |o.analyses| == |v| && forall i :: 0 <= i < |v| ==> o.analyses[i] == cast(v[i])
    ensures o.Threw? ==>
              (ErrorMessage(o.thrown) in [InvalidFormatMessage, AnalysisFailedMessage, ReadFailedMessage, UnknownErrorMessage])
    ensures read.ReadError? ==> ErrorMessage(o.thrown) == UnknownErrorMessage
  {
    match read
    case ReadError => Threw(NonError)
    case NotText => Threw(ErrorObject(ReadFailedMessage))
    case DataUrl(url) =>
      match AnalyzeCoinImage(call(url), parse)
      case Success(v) => Analyzed(CastEach(v, cast))
      case Failure(m) => Threw(ErrorObject(m))
  }

  /**
   * Every way the per-image step can fail leaves a non-empty message, so a
   * settled record always shows exactly one panel, and a failed one shows its
   * error.
   */
  lemma ClientFailuresAreShown(r: AnalysisResult, read: FileRead, call: string -> Reply, parse: string -> Parsed,
                               cast: Json -> CoinAnalysis, index: nat)
    ensures var o := ClientOutcome(read, call, parse, cast);
            var v := ResultsDisplay.ShowRecord(ToDisplayable(Settle(r, o)), index);
            && ResultsDisplay.PanelCount(v) == 1
            && (o.Threw? ==> v.errorPanel == Some(ErrorMessage(o.thrown)))
  {
    var o := ClientOutcome(read, call, parse, cast);
    if o.Threw? {
      var m := ErrorMessage(o.thrown);
      assert m != "" by {
        assert m in [InvalidFormatMessage, AnalysisFailedMessage, ReadFailedMessage, UnknownErrorMessage];
        assert |InvalidFormatMessage| > 0 && |AnalysisFailedMessage| > 0;
        assert |ReadFailedMessage| > 0 && |UnknownErrorMessage| > 0;
      }
    }
    ResultsDisplay.OnePanelPerSettledRecord(ToDisplayable(Settle(r, o)), index);
  }

  /**
   * An analysed image shows one coin per element of the normalised reply, in
   * order: the "Found N coins" heading when there are some, the no-coins
   * notice when there are none, and no error.
   */
  lemma ClientCoinsAreTheReply(r: AnalysisResult, url: string, call: string -> Reply, parse: string -> Parsed,
                               cast: Json -> CoinAnalysis, index: nat)
    requires AnalyzeCoinImage(call(url), parse).Success?
    ensures var items := AnalyzeCoinImage(call(url), parse).value;
            var v := ResultsDisplay.ShowRecord(ToDisplayable(Settle(r, ClientOutcome(DataUrl(url), call, parse, cast))), index);
            && |v.coins| == |items|
            && (forall i :: 0 <= i < |items| ==> v.coins[i] == cast(items[i]))
            && (v.heading.Some? <==> |items| > 0)
            && (v.noCoinsNotice <==> |items| == 0)
            && v.errorPanel.None?
  {
    var items := AnalyzeCoinImage(call(url), parse).value;
    var o := ClientOutcome(DataUrl(url), call, parse, cast);
    assert o == Analyzed(CastEach(items, cast));
    var d := ToDisplayable(Settle(r, o));
    assert d.analyses == Some(CastEach(items, cast)) && d.error.None?;
  }

  /**
   * For a reply that satisfies the response schema, read by a cast that
   * agrees with the typed reading of a coin, the coins shown are exactly the
   * decoded elements of the reply, in order.
   */
  lemma ConformingReplyShowsDecodedCoins(r: AnalysisResult, url: string, text: string, items: seq<Json>,
                                         call: string -> Reply, parse: string -> Parsed,
                                         cast: Json -> CoinAnalysis, index: nat)
    requires call(url) == Replied(Some(text))
    requires parse(Text.Trim(text)) == Parsed(JArray(items)) && Conforms(JArray(items), ResponseSchema)
    requires forall j :: DecodeCoin(j).Some? ==> cast(j) == DecodeCoin(j).value
    ensures var v := ResultsDisplay.ShowRecord(ToDisplayable(Settle(r, ClientOutcome(DataUrl(url), call, parse, cast))), index);
            && |v.coins| == |items|
            && forall i :: 0 <= i < |items| ==> DecodeCoin(items[i]) == Some(v.coins[i])
  {
    assert AnalyzeCoinImage(call(url), parse) == Success(Normalise(JArray(items)));
    ConformingReplyKept(JArray(items));
    ClientCoinsAreTheReply(r, url, call, parse, cast, index);
  }

  /**
   * After an analysis through the client, the results view has one view per
   * selected image, in order, and each shows exactly one panel: the coins
   * found, the no-coins notice, or the error.
   */
  lemma AnalyzedBatchShowsEveryOutcome(s: AppState, reader: File -> FileRead, call: string -> Reply,
                                       parse: string -> Parsed, cast: Json -> CoinAnalysis,
                                       stored: Option<string>, p: Persistence)
    requires |s.results| > 0
    ensures var e := HandleAnalyze(s, f => ClientOutcome(reader(f), call, parse, cast), stored, p);
            var vs := ResultsDisplay.ShowResults(seq(|e.state.results|, i requires 0 <= i < |e.state.results| =>
                                                   ToDisplayable(e.state.results[i])));
            && |vs| == |s.results|
            && forall i :: 0 <= i < |vs| ==> ResultsDisplay.PanelCount(vs[i]) == 1
  {
    var analyze := f => ClientOutcome(reader(f), call, parse, cast);
    var e := HandleAnalyze(s, analyze, stored, p);
    var ds := seq(|e.state.results|, i requires 0 <= i < |e.state.results| => ToDisplayable(e.state.results[i]));
    var vs := ResultsDisplay.ShowResults(ds);
    forall i | 0 <= i < |vs| ensures ResultsDisplay.PanelCount(vs[i]) == 1 {
      ClientFailuresAreShown(s.results[i], reader(s.results[i].file), call, parse, cast, i);
    }
  }

  /** The record as the results view receives it: without its file. */
  function ToDisplayable(r: AnalysisResult): (d: DisplayableResult)
    ensures d.imageUrl == r.imageUrl && d.analyses == r.analyses && d.error == r.error
  {
    DisplayableResult(r.imageUrl, r.analyses, r.error)
  }

  // ------------------------------------------------------- the view machine

  /** What the user can do, as the rendered page offers it. */
  datatype Event =
    | SelectImages(files: seq<File>, urls: seq<string>)
    | Analyze
    | ClearSelection
    | AnalyzeMore
    | OpenHistory
    | ViewSession(index: nat)
    | BackToHistory
    | CloseHistory
    | ClearSavedHistory

  /**
   * The page as a whole: the application state, the stored history, and the
   * saved session the history view has open, if any.
   */
  datatype Machine = Machine(state: AppState, stored: Option<string>, selected: Option<AnalysisSession>)

  const InitialMachine := Machine(InitialState, None, None)

  /**
   * Which events the page offers. In the upload view: the uploader with
   * nothing selected (it reports only a non-empty list of files), the
   * analyse and clear buttons with a selection. In the
   * results view: "Analyze More Coins". The header's history button always.
   * In the history view, with no saved session open: a button per saved
   * session; "Clear History" only when there are sessions; and the only way
   * back, "Analyze New Coins", only when there are none. With a saved session
   * open: "Back to History" and nothing else of the history view.
   */
  predicate Enabled(m: Machine, e: Event, c: Codec)
  {
    var s := m.state;
    var sessions := GetSessions(m.stored, c);
    match e
    case SelectImages(files, urls) => s.view == Upload && |s.results| == 0 && |files| > 0 && |urls| == |files|
    case Analyze => s.view == Upload && |s.results| > 0
    case ClearSelection => s.view == Upload && |s.results| > 0
    case AnalyzeMore => s.view == Results
    case OpenHistory => true
    case ViewSession(i) => s.view == History && m.selected.None? && i < |sessions|
    case BackToHistory => s.view == History && m.selected.Some?
    case CloseHistory => s.view == History && m.selected.None? && |sessions| == 0
    case ClearSavedHistory => s.view == History && m.selected.None? && |sessions| > 0
  }

  /**
   * One user action. Entering the history view mounts it afresh, with no
   * session open; pressing the history button while already there changes
   * nothing. Clearing is taken as confirmed (a cancelled dialog changes nothing).
   */
  function Step(m: Machine, e: Event, analyze: File -> Outcome, p: Persistence): (r: Machine)
    requires Enabled(m, e, p.codec)
    ensures e.OpenHistory? ==> r.state.view == History
    ensures e.OpenHistory? && m.state.view != History ==> r.selected.None?
    ensures e.CloseHistory? || e.AnalyzeMore? ==> r.state.view == Upload
    ensures e.Analyze? ==> r.state.view == Results
    ensures e.ViewSession? ==> r.selected == Some(GetSessions(m.stored, p.codec)[e.index])
    ensures e.ClearSavedHistory? ==> GetSessions(r.stored, p.codec) == []
    ensures !e.Analyze? && !e.ClearSavedHistory? ==> r.stored == m.stored
  {
    match e
    case SelectImages(files, urls) => m.(state := HandleImageSelect(m.state, files, urls))
    case Analyze =>
      var effect := HandleAnalyze(m.state, analyze, m.stored, p);
      m.(state := effect.state, stored := effect.stored)
    case ClearSelection => m.(state := HandleClearSelection(m.state))
    case AnalyzeMore => m.(state := ResetState(m.state, true))
    case OpenHistory =>
      if m.state.view == History then m else Machine(m.state.(view := History), m.stored, None)
    case ViewSession(i) => m.(selected := Some(GetSessions(m.stored, p.codec)[i]))
    case BackToHistory => m.(selected := None)
    case CloseHistory => m.(state := m.state.(view := Upload))
    case ClearSavedHistory => m.(stored := ClearHistory(m.stored))
  }

  /**
   * While saved sessions exist, every action leaves the page in the history
   * view with the same sessions, except clearing them; once they are cleared,
   * the way back is offered. So leaving the history view with a non-empty
   * history means deleting it.
   */
  lemma HistoryExitRequiresClearing(m: Machine, e: Event, analyze: File -> Outcome, p: Persistence)
    requires m.state.view == History && |GetSessions(m.stored, p.codec)| > 0
    requires Enabled(m, e, p.codec)
    ensures var r := Step(m, e, analyze, p);
            && r.state.view == History
            && (!e.ClearSavedHistory? ==> r.stored == m.stored)
            && (e.ClearSavedHistory? ==> Enabled(r, CloseHistory, p.codec))
  {
  }

  /**
   * What holds between user actions: nothing is loading, no record is both
   * analysed and failed, everything on the results view has finished, and a
   * saved session is open only in the history view.
   */
  predicate Valid(m: Machine)
  {
    var s := m.state;
    && !s.isLoading
    && (forall i :: 0 <= i < |s.results| ==> Exclusive(s.results[i]))
    && (s.view == Results ==> forall i :: 0 <= i < |s.results| ==> Finished(s.results[i]))
    && (m.selected.Some? ==> s.view == History)
  }

  lemma InitialStateValid()
    ensures Valid(InitialMachine)
  {
  }

  /** Every offered action keeps the page valid. */
  lemma StepPreservesValid(m: Machine, e: Event, analyze: File -> Outcome, p: Persistence)
    requires Valid(m) && Enabled(m, e, p.codec)
    ensures Valid(Step(m, e, analyze, p))
  {
    match e
    case Analyze =>
      var r := Step(m, e, analyze, p).state;
      forall i | 0 <= i < |r.results| ensures Finished(r.results[i]) && Exclusive(r.results[i]) {
      }
    case _ =>
  }
}

=== FILE: chart.dfy ===
/**
 * The price-trend chart: a month-sorted series is drawn in a 500 x 250 SVG
 * with fixed padding. Points are spread evenly across the plot by index, the
 * value axis is padded by a tenth of the value range, five value labels and
 * three date labels are placed, and a pointer position is mapped back to the
 * nearest point for the tooltip. All geometry is exact `real` arithmetic.
 */
module PriceChart {
  import opened Wrappers
  import opened Types
  import opened MonthSort

  const PaddingTop: real := 20.0
  const PaddingRight: real := 30.0
  const PaddingBottom: real := 40.0
  const PaddingLeft: real := 50.0
  const SvgWidth: real := 500.0
  const SvgHeight: real := 250.0
  const ChartWidth: real := SvgWidth - PaddingLeft - PaddingRight
  const ChartHeight: real := SvgHeight - PaddingTop - PaddingBottom
  /** The x of the last point and the y of the value-axis floor. */
  const PlotRight: real := SvgWidth - PaddingRight
  const PlotBottom: real := PaddingTop + ChartHeight
  const YLabelCount: nat := 5

  /** The value range the vertical axis spans. */
  datatype Band = Band(lower: real, upper: real)

  function RealMax(a: real, b: real): real
  {
    if a >= b then a else b
  }

  predicate AllNonNegative(s: seq<HistoricalValue>)
  {
    forall i :: 0 <= i < |s| ==> s[i].value >= 0.0
  }

  /** `Math.min(...values)` over a non-empty series. */
  function MinValue(s: seq<HistoricalValue>): (m: real)
    requires |s| > 0
    ensures forall i :: 0 <= i < |s| ==> m <= s[i].value
    ensures exists i :: 0 <= i < |s| && m == s[i].value
  {
    if |s| == 1 then s[0].value
    else
      var m := MinValue(s[1..]);
      assert forall i :: 1 <= i < |s| ==> s[i] == s[1..][i - 1];
      var w :| 0 <= w < |s[1..]| && m == s[1..][w].value;
      assert m == s[w + 1].value;
      if s[0].value <= m then s[0].value else m
  }

  /** `Math.max(...values)` over a non-empty series. */
  function MaxValue(s: seq<HistoricalValue>): (m: real)
    requires |s| > 0
    ensures forall i :: 0 <= i < |s| ==> s[i].value <= m
    ensures exists i :: 0 <= i < |s| && m == s[i].value
  {
    if |s| == 1 then s[0].value
    else
      var m := MaxValue(s[1..]);
      assert forall i :: 1 <= i < |s| ==> s[i] == s[1..][i - 1];
      var w :| 0 <= w < |s[1..]| && m == s[1..][w].value;
      assert m == s[w + 1].value;
      if s[0].value >= m then s[0].value else m
  }

  /**
   * The axis bounds as written: a tenth of the value range is added above the
   * largest value and taken off below the smallest, never going below zero.
   */
  function Bounds(s: seq<HistoricalValue>): (b: Band)
    requires |s| > 0
    ensures b.lower >= 0.0
    ensures b.upper - MaxValue(s) == (MaxValue(s) - MinValue(s)) / 10.0
    ensures b.lower == 0.0 || MinValue(s) - b.lower == (MaxValue(s) - MinValue(s)) / 10.0
    ensures b.lower == 0.0 <==> 11.0 * MinValue(s) <= MaxValue(s)
    ensures forall i :: 0 <= i < |s| ==> s[i].value <= b.upper
    ensures forall i :: 0 <= i < |s| && s[i].value >= 0.0 ==> b.lower <= s[i].value
    ensures AllNonNegative(s) ==> b.lower <= b.upper
  {
    var lo := MinValue(s);
    var hi := MaxValue(s);
    var range := hi - lo;
    Band(RealMax(0.0, lo - range * 0.1), hi + range * 0.1)
  }

  /** A flat series collapses the band to a point, so the value-to-y map divides zero by zero. */
  lemma FlatSeriesHasNoBand(s: seq<HistoricalValue>)
    requires |s| > 0 && s[0].value >= 0.0
    requires forall i :: 0 <= i < |s| ==> s[i].value == s[0].value
    ensures Bounds(s).lower == Bounds(s).upper == s[0].value
  {
  }

  /** The smallest such input: two months at the same price. */
  lemma FlatSeriesExample()
    ensures Bounds([HistoricalValue("2023-01", 5.0), HistoricalValue("2023-02", 5.0)]) == Band(5.0, 5.0)
  {
    FlatSeriesHasNoBand([HistoricalValue("2023-01", 5.0), HistoricalValue("2023-02", 5.0)]);
  }

  /**
   * The bounds the chart draws with: those of `Bounds`, except that a band of
   * zero width is widened by one unit each way (never below zero), so that a
   * flat series is drawn as a level line.
   */
  function SafeBounds(s: seq<HistoricalValue>): (b: Band)
    requires |s| > 0
    ensures b.lower != b.upper && b.lower >= 0.0
    ensures Bounds(s).lower != Bounds(s).upper ==> b == Bounds(s)
    ensures AllNonNegative(s) ==> b.lower < b.upper
    ensures AllNonNegative(s) ==> forall i :: 0 <= i < |s| ==> b.lower <= s[i].value <= b.upper
  {
    var b := Bounds(s);
    if b.lower == b.upper then Band(RealMax(0.0, b.lower - 1.0), b.upper + 1.0) else b
  }

  // ------------------------------------------------------------ coordinates

  /** `getX`: the x of the point at `index`, by linear interpolation over the plot width. */
  function GetX(index: int, n: nat): (x: real)
    requires n >= 2
    ensures 0 <= index < n ==> PaddingLeft <= x <= PlotRight
  {
    var f := index as real / (n - 1) as real;
    assert 0 <= index < n ==> 0.0 <= f <= 1.0;
    PaddingLeft + f * ChartWidth
  }

  /** The first point sits on the left padding, the last on the right edge of the plot, with equal steps between. */
  lemma GetXSpacing(i: int, n: nat)
    requires n >= 2
    ensures GetX(0, n) == PaddingLeft && GetX(n - 1, n) == PlotRight
    ensures GetX(i + 1, n) - GetX(i, n) == ChartWidth / (n - 1) as real
  {
    var d := (n - 1) as real;
    assert (n - 1) as real / d == 1.0;
    calc {
      GetX(i + 1, n) - GetX(i, n);
      ((i + 1) as real / d) * ChartWidth - (i as real / d) * ChartWidth;
      ((i as real + 1.0) / d - i as real / d) * ChartWidth;
      { assert (i as real + 1.0) / d - i as real / d == 1.0 / d; }
      (1.0 / d) * ChartWidth;
    }
  }

  /** `getX` is strictly increasing in the index. */
  lemma {:induction false} GetXStrictlyIncreasing(i: int, j: int, n: nat)
    requires n >= 2 && i < j
    ensures GetX(i, n) < GetX(j, n)
    decreases j - i
  {
    GetXSpacing(i, n);
    if i + 1 < j {
      GetXStrictlyIncreasing(i + 1, j, n);
    }
  }

  /** `getY`: the y of a value; larger values sit higher, so y decreases. */
  function GetY(value: real, b: Band): (y: real)
    requires b.lower != b.upper
    ensures b.lower + ((PlotBottom - y) / ChartHeight) * (b.upper - b.lower) == value
  {
    var f := (value - b.lower) / (b.upper - b.lower);
    assert f * (b.upper - b.lower) == value - b.lower;
    PaddingTop + ChartHeight - f * ChartHeight
  }

  /** The lower bound maps to the floor of the plot, the upper bound to its top, and values in between stay inside. */
  lemma GetYRange(value: real, b: Band)
    requires b.lower < b.upper
    ensures GetY(b.lower, b) == PlotBottom && GetY(b.upper, b) == PaddingTop
    ensures b.lower <= value <= b.upper ==> PaddingTop <= GetY(value, b) <= PlotBottom
  {
    var d := b.upper - b.lower;
    assert d / d == 1.0;
    if b.lower <= value <= b.upper {
      FractionInUnit(value - b.lower, d);
    }
  }

  lemma FractionInUnit(a: real, d: real)
    requires 0.0 <= a <= d && d > 0.0
    ensures 0.0 <= a / d <= 1.0
  {
    assert a / d * d == a;
  }

  lemma QuarterShare(d: real)
    requires d != 0.0
    ensures (d / 4.0) / d == 0.25
  {
    var q := (d / 4.0) / d;
    assert q * d == d / 4.0;
  }

  /** How far apart two values are drawn: their difference as a share of the band, times the plot height. */
  lemma GetYDifference(v: real, w: real, b: Band)
    requires b.lower != b.upper
    ensures GetY(v, b) - GetY(w, b) == ((w - v) / (b.upper - b.lower)) * ChartHeight
  {
    var d := b.upper - b.lower;
    assert (w - b.lower) / d - (v - b.lower) / d == (w - v) / d;
  }

  /** A larger value is drawn strictly higher. */
  lemma GetYStrictlyDecreasing(v: real, w: real, b: Band)
    requires b.lower < b.upper && v < w
    ensures GetY(w, b) < GetY(v, b)
  {
    var d := b.upper - b.lower;
    assert (w - b.lower) / d - (v - b.lower) / d == (w - v) / d;
  }

  // ------------------------------------------------------------------ paths

  datatype PathCommand =
    | MoveTo(x: real, y: real)
    | LineTo(x: real, y: real)
    | VerticalTo(toY: real)
    | HorizontalTo(toX: real)
    | ClosePath

  /** `linePath`: nothing for fewer than two points, else a move to the first point and a line to each next one. */
  function LinePath(s: seq<HistoricalValue>, b: Band): (r: seq<PathCommand>)
    requires b.lower != b.upper
    ensures |s| < 2 ==> r == []
    ensures |s| >= 2 ==> |r| == |s| && r[0].MoveTo? && forall i :: 1 <= i < |r| ==> r[i].LineTo?
    ensures |s| >= 2 ==> forall i :: 0 <= i < |r| ==>
              (r[i].MoveTo? || r[i].LineTo?) && r[i].x == GetX(i, |s|) && r[i].y == GetY(s[i].value, b)
  {
    if |s| < 2 then []
    else
      seq(|s|, i requires 0 <= i < |s| =>
        if i == 0 then MoveTo(GetX(i, |s|), GetY(s[i].value, b))
        else LineTo(GetX(i, |s|), GetY(s[i].value, b)))
  }

  /**
   * With the drawn bounds and non-negative prices, the line runs left to right
   * from x = 50 to x = 470, and every vertex lies inside the plot area.
   */
  lemma LinePathInsidePlot(s: seq<HistoricalValue>)
    requires |s| >= 2 && AllNonNegative(s)
    ensures var r := LinePath(s, SafeBounds(s));
      && r[0].x == PaddingLeft && r[|r| - 1].x == PlotRight
      && (forall i, j :: 0 <= i < j < |r| ==> r[i].x < r[j].x)
      && (forall i :: 0 <= i < |r| ==> PaddingTop <= r[i].y <= PlotBottom)
  {
    var b := SafeBounds(s);
    var r := LinePath(s, b);
    GetXSpacing(0, |s|);
    forall i, j | 0 <= i < j < |r| ensures r[i].x < r[j].x {
      GetXStrictlyIncreasing(i, j, |s|);
    }
    forall i | 0 <= i < |r| ensures PaddingTop <= r[i].y <= PlotBottom {
      GetYRange(s[i].value, b);
    }
  }

  /** `areaPath`: the line, then down to the floor, back to the left edge, and closed. */
  function AreaPath(s: seq<HistoricalValue>, b: Band): (r: seq<PathCommand>)
    requires b.lower != b.upper
    ensures |s| < 2 ==> r == []
    ensures |s| >= 2 ==> |r| == |s| + 3
    ensures |s| >= 2 ==> r[..|s|] == LinePath(s, b) && r[|s|..] == [VerticalTo(PlotBottom), HorizontalTo(PaddingLeft), ClosePath]
  {
    if |s| < 2 then [] else LinePath(s, b) + [VerticalTo(PlotBottom), HorizontalTo(PaddingLeft), ClosePath]
  }

  // ----------------------------------------------------------------- labels

  datatype ValueLabel = ValueLabel(value: real, y: real)

  /** `yAxisLabels`: five values from the lower to the upper bound in equal steps, each at its own y. */
  function YAxisLabels(b: Band): (r: seq<ValueLabel>)
    requires b.lower != b.upper
    ensures |r| == YLabelCount
    ensures r[0].value == b.lower && r[YLabelCount - 1].value == b.upper
    ensures forall i :: 0 <= i < YLabelCount - 1 ==> r[i + 1].value - r[i].value == (b.upper - b.lower) / 4.0
    ensures forall i :: 0 <= i < YLabelCount ==> r[i].y == GetY(r[i].value, b)
  {
    var step := (b.upper - b.lower) / (YLabelCount - 1) as real;
    seq(YLabelCount, i requires 0 <= i < YLabelCount =>
      ValueLabel(b.lower + step * i as real, GetY(b.lower + step * i as real, b)))
  }

  /** The value labels run from the floor of the plot to its top, a quarter of the height apart. */
  lemma YAxisLabelsSpanPlot(b: Band)
    requires b.lower < b.upper
    ensures YAxisLabels(b)[0].y == PlotBottom && YAxisLabels(b)[YLabelCount - 1].y == PaddingTop
    ensures forall i :: 0 <= i < YLabelCount - 1 ==>
              YAxisLabels(b)[i].y - YAxisLabels(b)[i + 1].y == ChartHeight / 4.0
  {
    var r := YAxisLabels(b);
    var d := b.upper - b.lower;
    GetYRange(b.lower, b);
    QuarterShare(d);
    forall i | 0 <= i < YLabelCount - 1
      ensures r[i].y - r[i + 1].y == ChartHeight / 4.0
    {
      GetYDifference(r[i].value, r[i + 1].value, b);
    }
  }

  /** `findIndex` on dates: the first position holding `date`, or -1. */
  function FindDate(s: seq<HistoricalValue>, date: string): (r: int)
    ensures -1 <= r < |s|
    ensures r >= 0 ==> s[r].date == date && forall j :: 0 <= j < r ==> s[j].date != date
    ensures r == -1 ==> forall j :: 0 <= j < |s| ==> s[j].date != date
  {
    if |s| == 0 then -1
    else if s[0].date == date then 0
    else
      var r := FindDate(s[1..], date);
      assert forall j :: 1 <= j < |s| ==> s[j] == s[1..][j - 1];
      if r == -1 then -1 else r + 1
  }

  datatype DateLabel = DateLabel(date: string, x: real)

  /** The label for a point of the series: its date, at the x of the first point with that date. */
  function LabelFor(s: seq<HistoricalValue>, d: HistoricalValue): (l: DateLabel)
    requires |s| >= 2 && d in s
    ensures l.date == d.date
    ensures exists k :: 0 <= k < |s| && s[k].date == d.date && l.x == GetX(k, |s|)
              && forall j :: 0 <= j < k ==> s[j].date != d.date
  {
    var k := FindDate(s, d.date);
    DateLabel(d.date, GetX(k, |s|))
  }

  /** `xAxisLabels`: none for fewer than two points, else the first, middle and last points' dates. */
  function XAxisLabels(s: seq<HistoricalValue>): (r: seq<DateLabel>)
    ensures |s| < 2 ==> r == []
    ensures |s| >= 2 ==> (|r| == 3
      && r[0].date == s[0].date && r[1].date == s[|s| / 2].date && r[2].date == s[|s| - 1].date)
  {
    if |s| < 2 then []
    else [LabelFor(s, s[0]), LabelFor(s, s[|s| / 2]), LabelFor(s, s[|s| - 1])]
  }

  /**
   * The first label is always at the left edge of the plot; when no date
   * repeats, the middle and last labels are at their own points, the last one
   * at the right edge.
   */
  lemma XAxisLabelPositions(s: seq<HistoricalValue>)
    requires |s| >= 2
    ensures XAxisLabels(s)[0].x == PaddingLeft
    ensures (forall i, j :: 0 <= i < j < |s| ==> s[i].date != s[j].date) ==>
              XAxisLabels(s)[1].x == GetX(|s| / 2, |s|) && XAxisLabels(s)[2].x == PlotRight
  {
    GetXSpacing(0, |s|);
    var r := XAxisLabels(s);
    assert r[0] == LabelFor(s, s[0]);
    var k :| 0 <= k < |s| && s[k].date == s[0].date && r[0].x == GetX(k, |s|)
             && forall j :: 0 <= j < k ==> s[j].date != s[0].date;
    assert k == 0;
  }

  // ---------------------------------------------------------------- tooltip

  datatype Tooltip = Tooltip(x: real, y: real, date: string, value: real)

  datatype PointerEvent = MouseMove(clientX: real) | MouseLeave

  /** `Math.round`: the nearest integer, halves rounded up. */
  function Round(x: real): (r: int)
    ensures r as real - 0.5 <= x < r as real + 0.5
  {
    (x + 0.5).Floor
  }

  /**
   * The index a pointer at `mouseX` (an offset from the SVG's left edge, in
   * view-box units) points to: the inverse of `getX`, rounded. The chosen
   * point lies within half a step of the pointer.
   */
  function HoverIndex(mouseX: real, n: nat): (r: int)
    requires n >= 2
    ensures GetX(r, n) - ChartWidth / (2 * (n - 1)) as real <= mouseX < GetX(r, n) + ChartWidth / (2 * (n - 1)) as real
  {
    var d := (n - 1) as real;
    var t := ((mouseX - PaddingLeft) / ChartWidth) * d;
    var r := Round(t);
    NearestPointOfRound(mouseX, t, r, d);
    assert ChartWidth / (2 * (n - 1)) as real == ChartWidth / (2.0 * d);
    r
  }

  /** Rounding the scaled offset `t` to `r` puts the pointer within half a step of point `r`. */
  lemma NearestPointOfRound(mouseX: real, t: real, r: int, d: real)
    requires d >= 1.0 && t == ((mouseX - PaddingLeft) / ChartWidth) * d
    requires r as real - 0.5 <= t < r as real + 0.5
    ensures PaddingLeft + (r as real / d) * ChartWidth - ChartWidth / (2.0 * d) <= mouseX
    ensures mouseX < PaddingLeft + (r as real / d) * ChartWidth + ChartWidth / (2.0 * d)
  {
    var step := ChartWidth / d;
    assert mouseX == PaddingLeft + t * step;
    assert (r as real / d) * ChartWidth == r as real * step;
    assert ChartWidth / (2.0 * d) == 0.5 * step;
    assert (r as real - 0.5) * step <= t * step < (r as real + 0.5) * step;
  }

  /** Any pointer within half a step of point `i` selects `i`; in particular the point's own x does. */
  lemma HoverSelectsNearestPoint(mouseX: real, i: int, n: nat)
    requires n >= 2
    requires GetX(i, n) - ChartWidth / (2 * (n - 1)) as real <= mouseX < GetX(i, n) + ChartWidth / (2 * (n - 1)) as real
    ensures HoverIndex(mouseX, n) == i
  {
    var d := (n - 1) as real;
    var t := ((mouseX - PaddingLeft) / ChartWidth) * d;
    var half := ChartWidth / (2 * (n - 1)) as real;
    assert half == ChartWidth / (2.0 * d);
    var delta := mouseX - GetX(i, n);
    assert mouseX - PaddingLeft == (i as real / d) * ChartWidth + delta;
    assert t == i as real + delta * d / ChartWidth;
    assert -half <= delta < half;
    assert half * d / ChartWidth == 0.5;
    assert -0.5 <= delta * d / ChartWidth < 0.5;
  }

  lemma HoverAtPoint(i: int, n: nat)
    requires n >= 2
    ensures HoverIndex(GetX(i, n), n) == i
  {
    HoverSelectsNearestPoint(GetX(i, n), i, n);
  }

  /** The SVG element's box on the page, in CSS pixels, as `getBoundingClientRect` reports it. */
  datatype SvgBox = SvgBox(left: real, width: real)

  /**
   * A pointer's offset from the SVG's left edge in view-box units. The element
   * is drawn `w-full h-auto`, so its 500-unit view box is stretched uniformly
   * to `width` pixels.
   */
  function ViewBoxOffset(clientX: real, box: SvgBox): (x: real)
    requires box.width > 0.0
    ensures x * box.width == (clientX - box.left) * SvgWidth
    ensures box.width == SvgWidth ==> x == clientX - box.left
  {
    (clientX - box.left) * SvgWidth / box.width
  }

  /** Where point `i` of `n` appears on the page, for a chart drawn in `box`. */
  function ScreenX(i: int, n: nat, box: SvgBox): (x: real)
    requires n >= 2 && box.width > 0.0
    ensures box.width == SvgWidth ==> x == box.left + GetX(i, n)
  {
    box.left + GetX(i, n) * box.width / SvgWidth
  }

  /**
   * The index lookup as written: the pixel offset `e.clientX - svgRect.left`
   * is taken as if it were in view-box units. It agrees with the rescaled
   * lookup only when the chart is drawn exactly 500 pixels wide.
   */
  function HoverIndexAsWritten(clientX: real, box: SvgBox, n: nat): (r: int)
    requires n >= 2 && box.width > 0.0
    ensures box.width == SvgWidth ==> r == HoverIndex(ViewBoxOffset(clientX, box), n)
  {
    HoverIndex(clientX - box.left, n)
  }

  /** On a chart drawn 1000 pixels wide, the pointer right over the first of twelve points selects the second. */
  lemma PixelOffsetExample()
    ensures ScreenX(0, 12, SvgBox(0.0, 1000.0)) == 100.0
    ensures HoverIndexAsWritten(ScreenX(0, 12, SvgBox(0.0, 1000.0)), SvgBox(0.0, 1000.0), 12) == 1
  {
    var box := SvgBox(0.0, 1000.0);
    assert GetX(0, 12) == 50.0;
    assert ScreenX(0, 12, box) == 100.0;
    assert ((100.0 - PaddingLeft) / ChartWidth) * 11.0 == 55.0 / 42.0;
    assert Round(55.0 / 42.0) == 1;
  }

  /** With the offset rescaled, the pointer over a drawn point selects that point at any drawn width. */
  lemma HoverAtDrawnPoint(i: int, n: nat, box: SvgBox)
    requires n >= 2 && box.width > 0.0
    ensures HoverIndex(ViewBoxOffset(ScreenX(i, n, box), box), n) == i
  {
    var g := GetX(i, n);
    var sx := ScreenX(i, n, box);
    assert sx - box.left == g * box.width / SvgWidth;
    ScaleThenRescale(g, box.width);
    assert ViewBoxOffset(sx, box) == g;
    HoverAtPoint(i, n);
  }

  /** Scaling into pixels and back into view-box units is the identity. */
  lemma ScaleThenRescale(g: real, w: real)
    requires w > 0.0
    ensures (g * w / SvgWidth) * SvgWidth / w == g
  {
    var u := g * w / SvgWidth;
    assert u * SvgWidth == g * w;
    assert (g * w) / w == g;
  }

  /**
   * The mouse handlers: leaving clears the tooltip; a move with no SVG element
   * or to an index outside the series keeps the current tooltip; otherwise the
   * tooltip shows the point under the pointer. The pointer's offset is
   * rescaled to view-box units; an element with no width keeps the tooltip.
   */
  function OnPointer(tooltip: Option<Tooltip>, svgBox: Option<SvgBox>, event: PointerEvent,
                     s: seq<HistoricalValue>, b: Band): (r: Option<Tooltip>)
    requires |s| >= 2 && b.lower != b.upper
    ensures event.MouseLeave? ==> r.None?
    ensures event.MouseMove? && (svgBox.None? || svgBox.value.width <= 0.0) ==> r == tooltip
    ensures event.MouseMove? && svgBox.Some? && svgBox.value.width > 0.0 ==>
              var i := HoverIndex(ViewBoxOffset(event.clientX, svgBox.value), |s|);
              if 0 <= i < |s| then r == Some(Tooltip(GetX(i, |s|), GetY(s[i].value, b), s[i].date, s[i].value))
              else r == tooltip
  {
    match event
    case MouseLeave => None
    case MouseMove(clientX) =>
      if svgBox.None? || svgBox.value.width <= 0.0 then tooltip
      else
        var index := HoverIndex(ViewBoxOffset(clientX, svgBox.value), |s|);
        if 0 <= index < |s| then
          var point := s[index];
          Some(Tooltip(GetX(index, |s|), GetY(point.value, b), point.date, point.value))
        else tooltip
  }

  /** An offset from the left padding more than half a step to the left scales to below -1/2. */
  lemma ScaledOffsetBelow(u: real, d: real)
    requires d >= 1.0 && u < -(ChartWidth / (2.0 * d))
    ensures (u / ChartWidth) * d < -0.5
  {
    var h := ChartWidth / (2.0 * d);
    assert h * d == ChartWidth / 2.0;
    var e := -h - u;
    assert e > 0.0 && e * d > 0.0;
    assert u * d == -(h * d) - e * d;
    assert (u / ChartWidth) * d == (u * d) / ChartWidth;
  }

  /** An offset more than half a step beyond the last point scales to at least d + 1/2. */
  lemma ScaledOffsetAbove(u: real, d: real)
    requires d >= 1.0 && u >= ChartWidth + ChartWidth / (2.0 * d)
    ensures (u / ChartWidth) * d >= d + 0.5
  {
    var h := ChartWidth / (2.0 * d);
    assert h * d == ChartWidth / 2.0;
    assert u * d >= (ChartWidth + h) * d;
    assert (u / ChartWidth) * d == (u * d) / ChartWidth;
  }

  /**
   * Pointers left of the first point or right of the last, by more than half
   * a step in view-box units, leave the tooltip as it was.
   */
  lemma PointerOutsideKeepsTooltip(tooltip: Option<Tooltip>, box: SvgBox, clientX: real,
                                   s: seq<HistoricalValue>, b: Band)
    requires |s| >= 2 && b.lower != b.upper && box.width > 0.0
    requires var x := ViewBoxOffset(clientX, box); var half := ChartWidth / (2 * (|s| - 1)) as real;
             x < PaddingLeft - half || x >= PlotRight + half
    ensures OnPointer(tooltip, Some(box), MouseMove(clientX), s, b) == tooltip
  {
    var d := (|s| - 1) as real;
    var x := ViewBoxOffset(clientX, box);
    assert (2 * (|s| - 1)) as real == 2.0 * d;
    if x < PaddingLeft - ChartWidth / (2.0 * d) {
      ScaledOffsetBelow(x - PaddingLeft, d);
    } else {
      ScaledOffsetAbove(x - PaddingLeft, d);
    }
  }

  // ---------------------------------------------------------------- the view

  datatype ChartView =
    | NotEnoughData
    | Chart(line: seq<PathCommand>, area: seq<PathCommand>, valueLabels: seq<ValueLabel>, dateLabels: seq<DateLabel>)

  /** The chart for a series: the placeholder below two points, else every element drawn from the sorted series. */
  function Render(data: seq<HistoricalValue>, key: MonthKey): (v: ChartView)
    ensures v.NotEnoughData? <==> |data| < 2
    ensures v.Chart? ==> (|v.line| == |data| && |v.area| == |data| + 3
      && |v.valueLabels| == YLabelCount && |v.dateLabels| == 3)
  {
    var s := SortByMonth(data, key);
    if |s| < 2 then NotEnoughData
    else
      var b := SafeBounds(s);
      Chart(LinePath(s, b), AreaPath(s, b), YAxisLabels(b), XAxisLabels(s))
  }

  /**
   * Whatever order the months arrive in, the date axis of the drawn chart
   * runs from the earliest month of the history to the latest.
   */
  lemma RenderDateAxisSpansMonths(data: seq<HistoricalValue>, key: MonthKey)
    requires |data| >= 2
    ensures Render(data, key).Chart?
    ensures var labels := Render(data, key).dateLabels;
            forall i :: 0 <= i < |data| ==>
              key(labels[0].date) <= key(data[i].date) <= key(labels[2].date)
  {
    var s := SortByMonth(data, key);
    DateAxisEnds(s);
    SortedEndsSpan(s, data, key);
  }

  /** The date axis is labelled by the first and the last point of the series it is drawn from. */
  lemma DateAxisEnds(s: seq<HistoricalValue>)
    requires |s| >= 2
    ensures XAxisLabels(s)[0].date == s[0].date && XAxisLabels(s)[2].date == s[|s| - 1].date
  {
  }

  /** The first and last points of a month-ordered permutation hold the earliest and latest months. */
  lemma SortedEndsSpan(s: seq<HistoricalValue>, data: seq<HistoricalValue>, key: MonthKey)
    requires |s| >= 1 && SortedByMonth(s, key) && multiset(s) == multiset(data)
    ensures forall i :: 0 <= i < |data| ==> key(s[0].date) <= key(data[i].date) <= key(s[|s| - 1].date)
  {
    forall i | 0 <= i < |data|
      ensures key(s[0].date) <= key(data[i].date) <= key(s[|s| - 1].date)
    {
      assert data[i] in multiset(s);
      var k :| 0 <= k < |s| && s[k] == data[i];
      assert key(s[0].date) <= key(s[k].date) <= key(s[|s| - 1].date);
    }
  }

  /**
   * The chart depends only on what each month holds, in input order: two
   * histories that agree month by month, however their months are
   * interleaved, draw the same chart.
   */
  lemma RenderDependsOnlyOnMonths(data: seq<HistoricalValue>, other: seq<HistoricalValue>, key: MonthKey)
    requires SameMonths(data, other, key)
    ensures Render(data, key) == Render(other, key)
  {
    var s := SortByMonth(other, key);
    assert SameMonths(s, data, key);
    SortByMonthIsStableSort(data, s, key);
  }
}

=== FILE: chart_sort.dfy ===
/**
 * Ordering of a price history by month, as the chart does before drawing:
 * a stable sort on the month each "YYYY-MM" date denotes. The month is an
 * abstract integer key, so the comparison is the (year, month) order.
 */
module MonthSort {
  import opened Types

  /** The month a date string denotes, as a number that orders months chronologically. */
  type MonthKey = string -> int

  predicate SortedByMonth(s: seq<HistoricalValue>, key: MonthKey)
  {
    forall i, j :: 0 <= i < j < |s| ==> key(s[i].date) <= key(s[j].date)
  }

  /** The points of `s` that fall in month `k`, in their order in `s`. */
  function InMonth(s: seq<HistoricalValue>, key: MonthKey, k: int): seq<HistoricalValue>
  {
    if |s| == 0 then []
    else (if key(s[0].date) == k then [s[0]] else []) + InMonth(s[1..], key, k)
  }

  lemma InMonthCons(x: HistoricalValue, s: seq<HistoricalValue>, key: MonthKey, k: int)
    ensures InMonth([x] + s, key, k) == (if key(x.date) == k then [x] else []) + InMonth(s, key, k)
  {
    assert ([x] + s)[1..] == s;
  }

  /** Every point listed for month `k` belongs to `s` and has month `k`. */
  lemma {:induction false} InMonthMembers(s: seq<HistoricalValue>, key: MonthKey, k: int)
    ensures forall y :: y in InMonth(s, key, k) ==> y in s && key(y.date) == k
  {
    if |s| > 0 {
      InMonthMembers(s[1..], key, k);
    }
  }

  /** Both lists hold the same points in each month, in the same order. */
  ghost predicate SameMonths(r: seq<HistoricalValue>, s: seq<HistoricalValue>, key: MonthKey)
  {
    forall k :: InMonth(r, key, k) == InMonth(s, key, k)
  }

  /** Inserts `x` before the first point whose month is not earlier, so it precedes its equals. */
  function Insert(x: HistoricalValue, s: seq<HistoricalValue>, key: MonthKey): (r: seq<HistoricalValue>)
    ensures multiset(r) == multiset{x} + multiset(s)
  {
    if |s| == 0 || key(x.date) <= key(s[0].date) then [x] + s
    else
      assert s == [s[0]] + s[1..];
      [s[0]] + Insert(x, s[1..], key)
  }

  lemma {:induction false} InsertSorted(x: HistoricalValue, s: seq<HistoricalValue>, key: MonthKey)
    requires SortedByMonth(s, key)
    ensures SortedByMonth(Insert(x, s, key), key)
    decreases |s|
  {
    if |s| > 0 && key(x.date) > key(s[0].date) {
      var rest := Insert(x, s[1..], key);
      InsertSorted(x, s[1..], key);
      if |s| == 1 || key(x.date) <= key(s[1].date) {
        assert rest[0] == x;
      } else {
        assert rest[0] == s[1];
      }
      var r := [s[0]] + rest;
      forall i, j | 0 <= i < j < |r| ensures key(r[i].date) <= key(r[j].date) {
        if i == 0 {
          assert r[j] == rest[j - 1];
          assert key(rest[0].date) <= key(rest[j - 1].date);
        } else {
          assert r[i] == rest[i - 1] && r[j] == rest[j - 1];
        }
      }
    }
  }

  /** `x` joins its own month at the front; every other month is untouched. */
  lemma {:induction false} InsertInMonth(x: HistoricalValue, s: seq<HistoricalValue>, key: MonthKey, k: int)
    ensures InMonth(Insert(x, s, key), key, k) == (if key(x.date) == k then [x] else []) + InMonth(s, key, k)
    decreases |s|
  {
    if |s| == 0 || key(x.date) <= key(s[0].date) {
      InMonthCons(x, s, key, k);
    } else {
      InsertInMonth(x, s[1..], key, k);
      InMonthCons(s[0], Insert(x, s[1..], key), key, k);
      InMonthCons(s[0], s[1..], key, k);
      assert s == [s[0]] + s[1..];
    }
  }

  /** `[...data].sort(byMonth)`: JavaScript's sort is stable, so points of one month keep their order. */
  function SortByMonth(data: seq<HistoricalValue>, key: MonthKey): (r: seq<HistoricalValue>)
    ensures SortedByMonth(r, key)
    ensures multiset(r) == multiset(data) && |r| == |data|
    ensures SameMonths(r, data, key)
  {
    if |data| == 0 then []
    else
      var sorted := SortByMonth(data[1..], key);
      var r := Insert(data[0], sorted, key);
      InsertSorted(data[0], sorted, key);
      assert data == [data[0]] + data[1..];
      assert |r| == |multiset(r)| == |multiset(data)| == |data|;
      forall k ensures InMonth(r, key, k) == InMonth(data, key, k) {
        InsertInMonth(data[0], sorted, key, k);
        InMonthCons(data[0], data[1..], key, k);
      }
      r
  }

  lemma NonEmptyHasFirstMonth(s: seq<HistoricalValue>, key: MonthKey)
    requires |s| > 0
    ensures InMonth(s, key, key(s[0].date)) != []
  {
  }

  /** In a sorted list, the first point's month is not later than any month present. */
  lemma FirstMonthIsLeast(s: seq<HistoricalValue>, key: MonthKey, k: int)
    requires SortedByMonth(s, key) && InMonth(s, key, k) != []
    ensures |s| > 0 && key(s[0].date) <= k
  {
    InMonthMembers(s, key, k);
    var y := InMonth(s, key, k)[0];
    assert y in InMonth(s, key, k);
    var i :| 0 <= i < |s| && s[i] == y;
  }

  /** A sorted list is determined by what it holds in each month. */
  lemma {:induction false} SortedListsAgree(t: seq<HistoricalValue>, u: seq<HistoricalValue>, key: MonthKey)
    requires SortedByMonth(t, key) && SortedByMonth(u, key)
    requires SameMonths(t, u, key)
    ensures t == u
    decreases |t|
  {
    if |t| == 0 {
      if |u| > 0 {
        NonEmptyHasFirstMonth(u, key);
      }
    } else {
      var m := key(t[0].date);
      assert t == [t[0]] + t[1..];
      InMonthCons(t[0], t[1..], key, m);
      FirstMonthIsLeast(u, key, m);
      var m' := key(u[0].date);
      assert u == [u[0]] + u[1..];
      InMonthCons(u[0], u[1..], key, m');
      FirstMonthIsLeast(t, key, m');
      assert m == m';
      assert InMonth(t, key, m)[0] == t[0];
      assert InMonth(u, key, m)[0] == u[0];
      forall k ensures InMonth(t[1..], key, k) == InMonth(u[1..], key, k) {
        InMonthCons(t[0], t[1..], key, k);
        InMonthCons(u[0], u[1..], key, k);
        var head := if key(t[0].date) == k then [t[0]] else [];
        assert InMonth(t, key, k) == head + InMonth(t[1..], key, k);
        assert InMonth(u, key, k) == head + InMonth(u[1..], key, k);
        assert InMonth(t[1..], key, k) == InMonth(t, key, k)[|head|..];
        assert InMonth(u[1..], key, k) == InMonth(u, key, k)[|head|..];
      }
      SortedListsAgree(t[1..], u[1..], key);
    }
  }

  /**
   * The sort is exactly the stable sort: a list is its result if and only if
   * it is ordered by month and keeps each month's points in input order.
   */
  lemma SortByMonthIsStableSort(data: seq<HistoricalValue>, r: seq<HistoricalValue>, key: MonthKey)
    ensures r == SortByMonth(data, key) <==> SortedByMonth(r, key) && SameMonths(r, data, key)
  {
    if SortedByMonth(r, key) && SameMonths(r, data, key) {
      var s := SortByMonth(data, key);
      assert SameMonths(r, s, key);
      SortedListsAgree(r, s, key);
    }
  }
}

=== FILE: gemini.dfy ===
/**
 * The part of the analysis client that runs after the remote model has
 * answered: the output schema it is sent, the normalisation of the parsed
 * reply into a list of coin analyses, and the mapping of every failure to one
 * of two user-facing messages. The remote call itself and `JSON.parse` are
 * parameters.
 */
module GeminiService {
  import opened Wrappers
  import opened Text
  import opened Types

  /** A parsed JSON value. Object members keep their order; keys are distinct. */
  datatype Json =
    | JNull
    | JBool(b: bool)
    | JNumber(n: real)
    | JString(s: string)
    | JArray(items: seq<Json>)
    | JObject(members: seq<Member>)

  datatype Member = Member(key: string, value: Json)

  /** A value caught by a `catch` block: an `Error` with its message, or anything else. */
  datatype Thrown = ErrorObject(message: string) | NonError

  /** What `JSON.parse` does with a text: a value, or a thrown `SyntaxError`. */
  datatype Parsed = Parsed(value: Json) | SyntaxError(message: string)

  /** The remote call either throws or yields a response whose `text` may be missing. */
  datatype Reply = CallFailed(thrown: Thrown) | Replied(text: Option<string>)

  const InvalidFormatMessage := "The AI returned an invalid response format. Please try again with a clearer image."
  const AnalysisFailedMessage := "Failed to analyze coin image. The AI may be experiencing issues."
  /** The `TypeError` raised by calling `trim` on a missing `text`. */
  const MissingTextMessage := "Cannot read properties of undefined (reading 'trim')"

  // ---------------------------------------------------------------- schema

  /** The subset of the provider's schema language the request uses. */
  datatype Schema =
    | SString
    | SInteger
    | SNumber
    | SArray(itemSchema: Schema)
    | SObject(properties: seq<(string, Schema)>, required: seq<string>)

  const MarketValueSchema: Schema := SObject(
    [("marketplace", SString), ("url", SString), ("value", SString), ("valueConfidence", SNumber)],
    ["marketplace", "url", "value", "valueConfidence"])

  const HistoricalValueSchema: Schema := SObject(
    [("date", SString), ("value", SNumber)],
    ["date", "value"])

  const SingleCoinSchema: Schema := SObject(
    [ ("coinType", SString), ("year", SInteger), ("mintMark", SString),
      ("condition", SString), ("description", SString), ("confidenceScore", SNumber),
      ("marketValues", SArray(MarketValueSchema)),
      ("historicalValues", SArray(HistoricalValueSchema)) ],
    ["coinType", "year", "mintMark", "condition", "description",
     "marketValues", "historicalValues", "confidenceScore"])

  /** The reply must be an array of coin objects. */
  const ResponseSchema: Schema := SArray(SingleCoinSchema)

  /** The property names of an object schema, in declaration order. */
  function PropertyKeys(props: seq<(string, Schema)>): (r: seq<string>)
    ensures |r| == |props| && forall j :: 0 <= j < |props| ==> r[j] == props[j].0
  {
    if |props| == 0 then [] else [props[0].0] + PropertyKeys(props[1..])
  }

  /** Every property a coin object requires is one it declares. */
  lemma CoinRequiredAreDeclared()
    ensures |SingleCoinSchema.required| == 8
    ensures forall i :: 0 <= i < |SingleCoinSchema.required| ==>
              SingleCoinSchema.required[i] in PropertyKeys(SingleCoinSchema.properties)
  {
    var r := SingleCoinSchema.required;
    var k := PropertyKeys(SingleCoinSchema.properties);
    assert r[0] == k[0]; assert r[1] == k[1]; assert r[2] == k[2]; assert r[3] == k[3];
    assert r[4] == k[4]; assert r[5] == k[6]; assert r[6] == k[7]; assert r[7] == k[5];
  }

  /** Every property a coin object declares is required. */
  lemma CoinDeclaredAreRequired()
    ensures |SingleCoinSchema.properties| == 8
    ensures forall j :: 0 <= j < |SingleCoinSchema.properties| ==>
              SingleCoinSchema.properties[j].0 in SingleCoinSchema.required
  {
    var p := SingleCoinSchema.properties;
    var r := SingleCoinSchema.required;
    assert r[0] == p[0].0; assert r[1] == p[1].0; assert r[2] == p[2].0; assert r[3] == p[3].0;
    assert r[4] == p[4].0; assert r[5] == p[6].0; assert r[6] == p[7].0; assert r[7] == p[5].0;
  }

  /** A marketplace entry requires all four of its properties, in declaration order. */
  lemma MarketValueSchemaRequiresEveryProperty()
    ensures MarketValueSchema.required == PropertyKeys(MarketValueSchema.properties)
    ensures |MarketValueSchema.required| == 4
  {
  }

  /** A history entry requires its date and its value. */
  lemma HistoricalValueSchemaRequiresEveryProperty()
    ensures HistoricalValueSchema.required == ["date", "value"]
    ensures HistoricalValueSchema.required == PropertyKeys(HistoricalValueSchema.properties)
  {
  }

  predicate HasKey(ms: seq<Member>, k: string)
  {
    exists i :: 0 <= i < |ms| && ms[i].key == k
  }

  predicate IsInteger(n: real)
  {
    n.Floor as real == n
  }

  /** A JSON value satisfies a schema: right kinds, required keys present, declared properties conform. */
  predicate Conforms(v: Json, s: Schema)
    decreases v
  {
    match s
    case SString => v.JString?
    case SInteger => v.JNumber? && IsInteger(v.n)
    case SNumber => v.JNumber?
    case SArray(item) =>
      v.JArray? && forall i :: 0 <= i < |v.items| ==> Conforms(v.items[i], item)
    case SObject(props, req) =>
      && v.JObject?
      && (forall k :: k in req ==> HasKey(v.members, k))
      && (forall i, j :: 0 <= i < |v.members| && 0 <= j < |props| && props[j].0 == v.members[i].key
            ==> Conforms(v.members[i].value, props[j].1))
  }

  // ------------------------------------------------- typed view of a reply

  /** The value stored under `k`, if any. */
  function Lookup(ms: seq<Member>, k: string): (r: Option<Json>)
    ensures r.Some? <==> HasKey(ms, k)
    ensures r.Some? ==> exists i :: 0 <= i < |ms| && ms[i] == Member(k, r.value)
  {
    if |ms| == 0 then None
    else if ms[0].key == k then Some(ms[0].value)
    else
      var r := Lookup(ms[1..], k);
      assert HasKey(ms[1..], k) ==> HasKey(ms, k) by {
        if HasKey(ms[1..], k) {
          var i :| 0 <= i < |ms[1..]| && ms[1..][i].key == k;
          assert ms[i + 1].key == k;
        }
      }
      assert r.Some? ==> exists i :: 0 <= i < |ms| && ms[i] == Member(k, r.value) by {
        if r.Some? {
          var i :| 0 <= i < |ms[1..]| && ms[1..][i] == Member(k, r.value);
          assert ms[i + 1] == Member(k, r.value);
        }
      }
      r
  }

  function StringField(v: Json, k: string): Option<string>
  {
    if v.JObject? then
      match Lookup(v.members, k)
      case Some(JString(s)) => Some(s)
      case _ => None
    else None
  }

  function NumberField(v: Json, k: string): Option<real>
  {
    if v.JObject? then
      match Lookup(v.members, k)
      case Some(JNumber(n)) => Some(n)
      case _ => None
    else None
  }

  function ArrayField(v: Json, k: string): Option<seq<Json>>
  {
    if v.JObject? then
      match Lookup(v.members, k)
      case Some(JArray(items)) => Some(items)
      case _ => None
    else None
  }

  function DecodeMarketValue(v: Json): Option<MarketplaceValue>
  {
    match (StringField(v, "marketplace"), StringField(v, "url"), StringField(v, "value"))
    case (Some(m), Some(u), Some(val)) =>
      Some(MarketplaceValue(m, u, val, NumberField(v, "valueConfidence")))
    case _ => None
  }

  function DecodeHistoricalValue(v: Json): Option<HistoricalValue>
  {
    match (StringField(v, "date"), NumberField(v, "value"))
    case (Some(d), Some(n)) => Some(HistoricalValue(d, n))
    case _ => None
  }

  function DecodeAll<T>(items: seq<Json>, decode: Json -> Option<T>): (r: Option<seq<T>>)
    ensures r.Some? <==> forall i :: 0 <= i < |items| ==> decode(items[i]).Some?
    ensures r.Some? ==> |r.value| == |items|
  {
    if |items| == 0 then Some([])
    else
      match (decode(items[0]), DecodeAll(items[1..], decode))
      case (Some(x), Some(xs)) => Some([x] + xs)
      case (Some(_), None) =>
        assert exists i :: 0 <= i < |items| && decode(items[i]).None? by {
          var i :| 0 <= i < |items[1..]| && decode(items[1..][i]).None?;
          assert decode(items[i + 1]).None?;
        }
        None
      case _ => None
  }

  /** Reads a coin object with the field types `CoinAnalysis` declares. */
  function DecodeCoin(v: Json): Option<CoinAnalysis>
  {
    var year := NumberField(v, "year");
    var markets := ArrayField(v, "marketValues");
    var history := ArrayField(v, "historicalValues");
    if year.None? || markets.None? || history.None? then None
    else
      match (StringField(v, "coinType"), StringField(v, "mintMark"), StringField(v, "condition"),
             StringField(v, "description"), DecodeAll(markets.value, DecodeMarketValue),
             DecodeAll(history.value, DecodeHistoricalValue))
      case (Some(t), Some(mm), Some(c), Some(d), Some(mv), Some(hv)) =>
        Some(CoinAnalysis(t, year.value.Floor, mm, c, d, mv, hv, NumberField(v, "confidenceScore")))
      case _ => None
  }

  /** A required property of an object schema is present and conforms to its declared schema. */
  lemma RequiredFieldConforms(v: Json, props: seq<(string, Schema)>, req: seq<string>, j: nat, i: nat)
    requires Conforms(v, SObject(props, req))
    requires j < |props| && i < |req| && req[i] == props[j].0
    ensures v.JObject? && Lookup(v.members, props[j].0).Some?
    ensures Conforms(Lookup(v.members, props[j].0).value, props[j].1)
  {
    var k := props[j].0;
    assert k in req;
    var r := Lookup(v.members, k);
    var m :| 0 <= m < |v.members| && v.members[m] == Member(k, r.value);
    assert props[j].0 == v.members[m].key;
  }

  lemma MarketValueDecodes(v: Json)
    requires Conforms(v, MarketValueSchema)
    ensures DecodeMarketValue(v).Some?
  {
    var p := MarketValueSchema.properties;
    var q := MarketValueSchema.required;
    RequiredFieldConforms(v, p, q, 0, 0);
    RequiredFieldConforms(v, p, q, 1, 1);
    RequiredFieldConforms(v, p, q, 2, 2);
  }

  lemma HistoricalValueDecodes(v: Json)
    requires Conforms(v, HistoricalValueSchema)
    ensures DecodeHistoricalValue(v).Some?
  {
    var p := HistoricalValueSchema.properties;
    var q := HistoricalValueSchema.required;
    RequiredFieldConforms(v, p, q, 0, 0);
    RequiredFieldConforms(v, p, q, 1, 1);
  }

  /** A required string property of a conforming object reads as a string. */
  lemma StringFieldPresent(v: Json, props: seq<(string, Schema)>, req: seq<string>, j: nat, i: nat)
    requires Conforms(v, SObject(props, req))
    requires j < |props| && i < |req| && req[i] == props[j].0 && props[j].1 == SString
    ensures StringField(v, props[j].0).Some?
  {
    RequiredFieldConforms(v, props, req, j, i);
  }

  /** A required number property of a conforming object reads as a number. */
  lemma NumberFieldPresent(v: Json, props: seq<(string, Schema)>, req: seq<string>, j: nat, i: nat)
    requires Conforms(v, SObject(props, req))
    requires j < |props| && i < |req| && req[i] == props[j].0 && (props[j].1 == SNumber || props[j].1 == SInteger)
    ensures NumberField(v, props[j].0).Some?
  {
    RequiredFieldConforms(v, props, req, j, i);
  }

  lemma CoinTextFieldsPresent(v: Json)
    requires Conforms(v, SingleCoinSchema)
    ensures StringField(v, "coinType").Some? && StringField(v, "mintMark").Some?
    ensures StringField(v, "condition").Some? && StringField(v, "description").Some?
  {
    var p := SingleCoinSchema.properties;
    var q := SingleCoinSchema.required;
    StringFieldPresent(v, p, q, 0, 0);
    StringFieldPresent(v, p, q, 2, 2);
    StringFieldPresent(v, p, q, 3, 3);
    StringFieldPresent(v, p, q, 4, 4);
  }

  lemma CoinNumbersPresent(v: Json)
    requires Conforms(v, SingleCoinSchema)
    ensures NumberField(v, "year").Some? && NumberField(v, "confidenceScore").Some?
  {
    var p := SingleCoinSchema.properties;
    var q := SingleCoinSchema.required;
    NumberFieldPresent(v, p, q, 1, 1);
    NumberFieldPresent(v, p, q, 5, 7);
  }

  lemma CoinMarketsDecode(v: Json)
    requires Conforms(v, SingleCoinSchema)
    ensures ArrayField(v, "marketValues").Some?
    ensures forall m :: m in ArrayField(v, "marketValues").value ==> Conforms(m, MarketValueSchema)
    ensures DecodeAll(ArrayField(v, "marketValues").value, DecodeMarketValue).Some?
  {
    var p := SingleCoinSchema.properties;
    RequiredFieldConforms(v, p, SingleCoinSchema.required, 6, 5);
    var markets := ArrayField(v, "marketValues").value;
    forall i | 0 <= i < |markets|
      ensures DecodeMarketValue(markets[i]).Some?
    {
      MarketValueDecodes(markets[i]);
    }
  }

  lemma CoinHistoryDecodes(v: Json)
    requires Conforms(v, SingleCoinSchema)
    ensures ArrayField(v, "historicalValues").Some?
    ensures DecodeAll(ArrayField(v, "historicalValues").value, DecodeHistoricalValue).Some?
  {
    var p := SingleCoinSchema.properties;
    RequiredFieldConforms(v, p, SingleCoinSchema.required, 7, 6);
    var history := ArrayField(v, "historicalValues").value;
    forall i | 0 <= i < |history|
      ensures DecodeHistoricalValue(history[i]).Some?
    {
      HistoricalValueDecodes(history[i]);
    }
  }

  /**
   * The `as CoinAnalysis[]` cast is unchecked; it is sound for a reply that
   * satisfies the schema: every coin object then reads as a `CoinAnalysis`
   * with a confidence score and a confidence on every marketplace entry.
   */
  lemma ConformingCoinDecodes(v: Json)
    requires Conforms(v, SingleCoinSchema)
    ensures DecodeCoin(v).Some?
    ensures DecodeCoin(v).value.confidenceScore.Some?
    ensures forall m :: m in DecodeCoin(v).value.marketValues ==> m.valueConfidence.Some?
  {
    CoinTextFieldsPresent(v);
    CoinNumbersPresent(v);
    CoinMarketsDecode(v);
    CoinHistoryDecodes(v);
    var markets := ArrayField(v, "marketValues").value;
    var mv := DecodeAll(markets, DecodeMarketValue).value;
    assert DecodeCoin(v).value.marketValues == mv;
    forall m | m in mv
      ensures m.valueConfidence.Some?
    {
      var i :| 0 <= i < |mv| && mv[i] == m;
      MarketValueConfidence(markets, mv, i);
    }
  }

  lemma {:induction false} MarketValueConfidence(items: seq<Json>, mv: seq<MarketplaceValue>, i: nat)
    requires DecodeAll(items, DecodeMarketValue) == Some(mv)
    requires forall m :: m in items ==> Conforms(m, MarketValueSchema)
    requires i < |mv|
    ensures mv[i].valueConfidence.Some?
    decreases |items|
  {
    var p := MarketValueSchema.properties;
    var q := MarketValueSchema.required;
    RequiredFieldConforms(items[0], p, q, 3, 3);
    if i > 0 {
      MarketValueConfidence(items[1..], mv[1..], i - 1);
    }
  }

  // --------------------------------------------------------- normalisation

  /**
   * The reply's decision table: an array is used as it is, a non-empty object
   * is wrapped in a one-element list, anything else becomes the empty list.
   */
  function Normalise(v: Json): (r: seq<Json>)
    ensures v.JArray? ==> r == v.items
    ensures v.JObject? && |v.members| > 0 ==> r == [v]
    ensures !v.JArray? && !(v.JObject? && |v.members| > 0) ==> r == []
  {
    if v.JArray? then v.items
    else if v.JObject? && |v.members| > 0 then [v]
    else []
  }

  /** How many analyses a parsed reply yields: N for an array of N, 1 for a non-empty object, else 0. */
  lemma NormaliseCount(v: Json)
    ensures |Normalise(v)| == (if v.JArray? then |v.items| else if v.JObject? && |v.members| > 0 then 1 else 0)
    ensures v == JObject([]) || v == JNull || v.JBool? || v.JNumber? || v.JString? ==> Normalise(v) == []
  {
  }

  /** A reply that satisfies the response schema is returned element for element. */
  lemma ConformingReplyKept(v: Json)
    requires Conforms(v, ResponseSchema)
    ensures Normalise(v) == v.items
    ensures forall i :: 0 <= i < |v.items| ==> DecodeCoin(Normalise(v)[i]).Some?
  {
    forall i | 0 <= i < |v.items|
      ensures DecodeCoin(Normalise(v)[i]).Some?
    {
      ConformingCoinDecodes(v.items[i]);
    }
  }

  // --------------------------------------------------------- error mapping

  /** The `catch` block: an `Error` whose message mentions JSON is a format error, anything else a failure. */
  function FailureMessage(e: Thrown): (m: string)
    ensures m == InvalidFormatMessage <==> e.ErrorObject? && Contains(e.message, "JSON")
    ensures m == AnalysisFailedMessage <==> !(e.ErrorObject? && Contains(e.message, "JSON"))
  {
    if e.ErrorObject? && Contains(e.message, "JSON") then InvalidFormatMessage else AnalysisFailedMessage
  }

  /**
   * `analyzeCoinImage` after the request: trim the reply text, parse it,
   * normalise the value; every thrown value becomes one of two messages.
   */
  function AnalyzeCoinImage(reply: Reply, parse: string -> Parsed): (r: Result<seq<Json>, string>)
    ensures r.Success? <==> reply.Replied? && reply.text.Some? && parse(Trim(reply.text.value)).Parsed?
    ensures r.Success? ==> r.value == Normalise(parse(Trim(reply.text.value)).value)
    ensures r.Failure? ==> r.error == InvalidFormatMessage || r.error == AnalysisFailedMessage
  {
    match reply
    case CallFailed(e) => Failure(FailureMessage(e))
    case Replied(None) => Failure(FailureMessage(ErrorObject(MissingTextMessage)))
    case Replied(Some(text)) => ParseReply(Trim(text), parse)
  }

  /** The `try` block after trimming: parse the text and normalise the value; a `SyntaxError` goes to the catch block. */
  function ParseReply(t: string, parse: string -> Parsed): (r: Result<seq<Json>, string>)
    ensures r.Success? <==> parse(t).Parsed?
    ensures r.Success? ==> r.value == Normalise(parse(t).value)
    ensures r.Failure? ==> (r.error == InvalidFormatMessage <==> Contains(parse(t).message, "JSON"))
  {
    match parse(t)
    case Parsed(v) => Success(Normalise(v))
    case SyntaxError(m) => Failure(FailureMessage(ErrorObject(m)))
  }

  /** A parse error is never turned into an empty list: it always fails, with the format message when the parser's message names JSON. */
  lemma ParseErrorFails(text: string, parse: string -> Parsed)
    requires parse(Trim(text)).SyntaxError?
    ensures AnalyzeCoinImage(Replied(Some(text)), parse).Failure?
    ensures Contains(parse(Trim(text)).message, "JSON") ==>
              AnalyzeCoinImage(Replied(Some(text)), parse) == Failure(InvalidFormatMessage)
  {
    var r := ParseReply(Trim(text), parse);
    assert AnalyzeCoinImage(Replied(Some(text)), parse) == r;
  }

  /** Whitespace around the reply text never changes the outcome. */
  lemma SurroundingWhitespaceIgnored(a: string, text: string, b: string, parse: string -> Parsed)
    requires AllWhitespace(a) && AllWhitespace(b)
    ensures AnalyzeCoinImage(Replied(Some(a + text + b)), parse) == AnalyzeCoinImage(Replied(Some(text)), parse)
  {
    TrimIgnoresPadding(a, text, b);
  }
}

=== FILE: history.dfy ===
/**
 * The history store: a newest-first list of analysis sessions kept as one
 * JSON text under a fixed key of the browser's local storage, capped at 50
 * sessions. The stored value is an `Option<string>` (absent or a text), JSON
 * is an abstract encode/decode pair, and reading an image file as a data URL
 * is a parameter that may fail.
 */
module HistoryManager {
  import opened Wrappers
  import opened Text
  import opened Types

  const HistoryKey := "coinAnalysisHistory"
  const MaxSessions: nat := 50

  /** `JSON.stringify` and `JSON.parse` on session lists; decoding fails on text that does not parse. */
  datatype Codec = Codec(
    encode: seq<AnalysisSession> -> string,
    decode: string -> Option<seq<AnalysisSession>>)

  /**
   * The JSON laws the store relies on, for one list: decoding its encoding
   * gives the list back, and the encoding is never the empty text (it is at
   * least `[]`). They are asked only of the list a save actually writes.
   */
  predicate RoundTripsAt(c: Codec, ss: seq<AnalysisSession>)
  {
    c.decode(c.encode(ss)) == Some(ss) && c.encode(ss) != ""
  }

  function Min(a: nat, b: nat): nat
  {
    if a <= b then a else b
  }

  /**
   * `getSessions`: the decoded list, or the empty list when the key is absent,
   * holds the empty text, or holds text that does not parse.
   */
  function GetSessions(stored: Option<string>, c: Codec): (r: seq<AnalysisSession>)
    ensures stored.None? || stored == Some("") ==> r == []
    ensures stored.Some? && c.decode(stored.value).None? ==> r == []
    ensures stored.Some? && stored.value != "" && c.decode(stored.value).Some? ==> r == c.decode(stored.value).value
  {
    match stored
    case None => []
    case Some(text) =>
      if text == "" then []
      else
        match c.decode(text)
        case None => []
        case Some(sessions) => sessions
  }

  /** The storable form of one result: `file` and `imageUrl` dropped, the image kept as a data URL. */
  function ToSaved(r: AnalysisResult, imageDataUrl: string): (saved: SavedAnalysisResult)
    ensures saved.analyses == r.analyses && saved.error == r.error
    ensures saved.imageDataUrl == imageDataUrl
  {
    SavedAnalysisResult(r.analyses, r.error, imageDataUrl)
  }

  /**
   * The conversion of a batch, which must finish for every image before
   * anything is written: one saved result per input in input order, or
   * nothing if any image cannot be read.
   */
  function ConvertResults(results: seq<AnalysisResult>, toDataUrl: File -> Option<string>): (r: Option<seq<SavedAnalysisResult>>)
    ensures r.Some? <==> forall i :: 0 <= i < |results| ==> toDataUrl(results[i].file).Some?
    ensures r.Some? ==> |r.value| == |results|
    ensures r.Some? ==> forall i :: 0 <= i < |results| ==>
              r.value[i] == ToSaved(results[i], toDataUrl(results[i].file).value)
  {
    if |results| == 0 then Some([])
    else
      match (toDataUrl(results[0].file), ConvertResults(results[1..], toDataUrl))
      case (Some(url), Some(rest)) =>
        assert forall i :: 1 <= i < |results| ==> results[i] == results[1..][i - 1];
        Some([ToSaved(results[0], url)] + rest)
      case (Some(_), None) =>
        assert exists i :: 0 <= i < |results| && toDataUrl(results[i].file).None? by {
          var i :| 0 <= i < |results[1..]| && toDataUrl(results[1..][i].file).None?;
          assert results[1..][i] == results[i + 1];
        }
        None
      case _ => None
  }

  /** The list written by a save: the new session first, then the old ones, cut to the cap. */
  function Prepend(session: AnalysisSession, sessions: seq<AnalysisSession>): (r: seq<AnalysisSession>)
    ensures |r| == Min(|sessions| + 1, MaxSessions)
    ensures r[0] == session && r[1..] == sessions[..|r| - 1]
  {
    var all := [session] + sessions;
    assert all[1..] == sessions;
    all[..Min(|all|, MaxSessions)]
  }

  /**
   * `saveSession`. `idClock` and `dateClock` are the two readings of the clock
   * (the id is the first one in decimal); `accepts` says whether storage takes
   * the text or throws (quota exceeded). Every failure is swallowed and leaves
   * the stored value as it was.
   */
  function SaveSession(stored: Option<string>, results: seq<AnalysisResult>, toDataUrl: File -> Option<string>,
                       idClock: nat, dateClock: nat, c: Codec, accepts: string -> bool): (r: Option<string>)
    ensures ConvertResults(results, toDataUrl).None? ==> r == stored
    ensures r != stored ==> r.Some? && accepts(r.value)
  {
    match ConvertResults(results, toDataUrl)
    case None => stored
    case Some(saved) =>
      var session := AnalysisSession(DecimalString(idClock), dateClock, saved);
      var text := c.encode(Prepend(session, GetSessions(stored, c)));
      if accepts(text) then Some(text) else stored
  }

  /**
   * The session a successful save adds, as the next read sees it: its id is
   * the decimal text of the first clock reading and reads back as that
   * number, its date is the second reading, and it holds one saved result
   * per image in order.
   */
  function NewSession(results: seq<AnalysisResult>, toDataUrl: File -> Option<string>, idClock: nat, dateClock: nat): (session: AnalysisSession)
    requires ConvertResults(results, toDataUrl).Some?
    ensures ParseDecimal(session.id) == idClock && session.date == dateClock
    ensures |session.results| == |results|
    ensures forall i :: 0 <= i < |results| ==>
              && session.results[i].analyses == results[i].analyses
              && session.results[i].error == results[i].error
              && session.results[i].imageDataUrl == toDataUrl(results[i].file).value
  {
    DecimalStringRoundTrip(idClock);
    AnalysisSession(DecimalString(idClock), dateClock, ConvertResults(results, toDataUrl).value)
  }

  /** The session list a save hands to `JSON.stringify`: the new session in front of the stored ones. */
  function Written(stored: Option<string>, results: seq<AnalysisResult>, toDataUrl: File -> Option<string>,
                   idClock: nat, dateClock: nat, c: Codec): seq<AnalysisSession>
    requires ConvertResults(results, toDataUrl).Some?
  {
    Prepend(NewSession(results, toDataUrl, idClock, dateClock), GetSessions(stored, c))
  }

  /** Whether the single write of a save goes through. */
  predicate SaveWrites(stored: Option<string>, results: seq<AnalysisResult>, toDataUrl: File -> Option<string>,
                       idClock: nat, dateClock: nat, c: Codec, accepts: string -> bool)
  {
    && ConvertResults(results, toDataUrl).Some?
    && accepts(c.encode(Written(stored, results, toDataUrl, idClock, dateClock, c)))
  }

  /** The codec reads back whatever list this save would write. */
  predicate WrittenRoundTrips(stored: Option<string>, results: seq<AnalysisResult>, toDataUrl: File -> Option<string>,
                              idClock: nat, dateClock: nat, c: Codec)
  {
    ConvertResults(results, toDataUrl).Some? ==>
      RoundTripsAt(c, Written(stored, results, toDataUrl, idClock, dateClock, c))
  }

  /**
   * After a save that writes, the history reads back newest first: the new
   * session, then the previous sessions in their order, with only the oldest
   * dropped to stay within 50. A save that does not write changes nothing.
   */
  lemma SaveThenGet(stored: Option<string>, results: seq<AnalysisResult>, toDataUrl: File -> Option<string>,
                    idClock: nat, dateClock: nat, c: Codec, accepts: string -> bool)
    requires WrittenRoundTrips(stored, results, toDataUrl, idClock, dateClock, c)
    ensures var before := GetSessions(stored, c);
            var after := GetSessions(SaveSession(stored, results, toDataUrl, idClock, dateClock, c, accepts), c);
            if SaveWrites(stored, results, toDataUrl, idClock, dateClock, c, accepts) then
              && |after| == Min(|before| + 1, MaxSessions)
              && after[0] == NewSession(results, toDataUrl, idClock, dateClock)
              && after[1..] == before[..|after| - 1]
            else after == before
  {
    if SaveWrites(stored, results, toDataUrl, idClock, dateClock, c, accepts) {
      var written := Written(stored, results, toDataUrl, idClock, dateClock, c);
      assert RoundTripsAt(c, written);
    }
  }

  /** Saving into a full history of 50 evicts exactly the oldest session. */
  lemma FullHistoryEvictsOldest(stored: Option<string>, results: seq<AnalysisResult>, toDataUrl: File -> Option<string>,
                                idClock: nat, dateClock: nat, c: Codec, accepts: string -> bool)
    requires WrittenRoundTrips(stored, results, toDataUrl, idClock, dateClock, c)
    requires |GetSessions(stored, c)| == MaxSessions
    requires SaveWrites(stored, results, toDataUrl, idClock, dateClock, c, accepts)
    ensures var before := GetSessions(stored, c);
            GetSessions(SaveSession(stored, results, toDataUrl, idClock, dateClock, c, accepts), c)
              == [NewSession(results, toDataUrl, idClock, dateClock)] + before[..MaxSessions - 1]
  {
    SaveThenGet(stored, results, toDataUrl, idClock, dateClock, c, accepts);
    var after := GetSessions(SaveSession(stored, results, toDataUrl, idClock, dateClock, c, accepts), c);
    assert after == [after[0]] + after[1..];
  }

  /** A history of at most 50 sessions stays within 50 after any save. */
  lemma SaveKeepsCap(stored: Option<string>, results: seq<AnalysisResult>, toDataUrl: File -> Option<string>,
                     idClock: nat, dateClock: nat, c: Codec, accepts: string -> bool)
    requires WrittenRoundTrips(stored, results, toDataUrl, idClock, dateClock, c)
    requires |GetSessions(stored, c)| <= MaxSessions
    ensures |GetSessions(SaveSession(stored, results, toDataUrl, idClock, dateClock, c, accepts), c)| <= MaxSessions
  {
    SaveThenGet(stored, results, toDataUrl, idClock, dateClock, c, accepts);
  }

  /** `clearHistory`: the key is removed. */
  function ClearHistory(stored: Option<string>): (r: Option<string>)
    ensures forall c :: GetSessions(r, c) == []
  {
    None
  }

  /** `mapSessionToDisplayableResults`: each saved result shown with its data URL as the image. */
  function MapSessionToDisplayableResults(session: AnalysisSession): (r: seq<DisplayableResult>)
    ensures |r| == |session.results|
    ensures forall i :: 0 <= i < |r| ==>
              && r[i].imageUrl == session.results[i].imageDataUrl
              && r[i].analyses == session.results[i].analyses
              && r[i].error == session.results[i].error
  {
    seq(|session.results|, i requires 0 <= i < |session.results| =>
      DisplayableResult(session.results[i].imageDataUrl, session.results[i].analyses, session.results[i].error))
  }

  /**
   * Saving and re-displaying a batch loses nothing but the transient handles:
   * the i-th record shows the i-th input's analyses and error, with the image
   * read from that input's file.
   */
  lemma SavedBatchDisplaysAsOriginal(results: seq<AnalysisResult>, toDataUrl: File -> Option<string>,
                                     idClock: nat, dateClock: nat)
    requires ConvertResults(results, toDataUrl).Some?
    ensures var shown := MapSessionToDisplayableResults(NewSession(results, toDataUrl, idClock, dateClock));
            && |shown| == |results|
            && forall i :: 0 <= i < |results| ==>
                 && shown[i].analyses == results[i].analyses
                 && shown[i].error == results[i].error
                 && Some(shown[i].imageUrl) == toDataUrl(results[i].file)
  {
  }
}

=== FILE: results.dfy ===
/**
 * The decisions the results panel makes: which logo a marketplace gets, which
 * colour a confidence score gets, whether a coin offers its price chart, and
 * which of the error, coin-list and no-coins panels a record shows.
 */
module ResultsDisplay {
  import opened Wrappers
  import opened Text
  import opened Types
  import opened MonthSort
  import PriceChart

  datatype MarketplaceIcon = EbayIcon | HeritageIcon | ApmexIcon | PlainName(name: string)

  /**
   * `getMarketplaceIcon`: on the lower-cased name, "ebay" wins over
   * "heritage", which wins over "apmex" or "jm bullion"; any other name is
   * shown as written.
   */
  function GetMarketplaceIcon(name: string): (r: MarketplaceIcon)
    ensures r == EbayIcon <==> Contains(ToLower(name), "ebay")
    ensures r == HeritageIcon <==> !Contains(ToLower(name), "ebay") && Contains(ToLower(name), "heritage")
    ensures r == ApmexIcon <==>
              && !Contains(ToLower(name), "ebay") && !Contains(ToLower(name), "heritage")
              && (Contains(ToLower(name), "apmex") || Contains(ToLower(name), "jm bullion"))
    ensures r.PlainName? ==> r.name == name
  {
    var lowerName := ToLower(name);
    if Contains(lowerName, "ebay") then EbayIcon
    else if Contains(lowerName, "heritage") then HeritageIcon
    else if Contains(lowerName, "apmex") || Contains(lowerName, "jm bullion") then ApmexIcon
    else PlainName(name)
  }

  lemma LowerIdempotent(s: string)
    ensures ToLower(ToLower(s)) == ToLower(s)
  {
  }

  /** The choice of logo ignores letter case: a name and its lower-cased form get the same logo. */
  lemma IconIgnoresCase(name: string)
    ensures GetMarketplaceIcon(ToLower(name)).PlainName? == GetMarketplaceIcon(name).PlainName?
    ensures !GetMarketplaceIcon(name).PlainName? ==> GetMarketplaceIcon(ToLower(name)) == GetMarketplaceIcon(name)
  {
    LowerIdempotent(name);
  }

  /** A name that mentions a keyword anywhere, in any letter case, gets a logo. */
  lemma KeywordGetsLogo(prefix: string, keyword: string, suffix: string)
    requires ToLower(keyword) in ["ebay", "heritage", "apmex", "jm bullion"]
    ensures !GetMarketplaceIcon(prefix + keyword + suffix).PlainName?
  {
    var lower := ToLower(prefix + keyword + suffix);
    var k := ToLower(keyword);
    assert lower[|prefix|..|prefix| + |keyword|] == k;
    assert OccursAt(lower, k, |prefix|);
    ContainsIffOccurrence(lower, k);
  }

  /** The three colours of a confidence badge. */
  datatype Tier = Red | Yellow | Green

  function TierRank(t: Tier): nat
  {
    match t
    case Red => 0
    case Yellow => 1
    case Green => 2
  }

  /** `ConfidenceBadge`: green from 0.8, yellow from 0.6, red below. */
  function ConfidenceTier(score: real): (t: Tier)
    ensures t == Green <==> score >= 0.8
    ensures t == Yellow <==> 0.6 <= score < 0.8
    ensures t == Red <==> score < 0.6
  {
    if score >= 0.8 then Green else if score >= 0.6 then Yellow else Red
  }

  /** A higher score never gets a lower tier. */
  lemma ConfidenceTierMonotone(a: real, b: real)
    requires a <= b
    ensures TierRank(ConfidenceTier(a)) <= TierRank(ConfidenceTier(b))
  {
  }

  /** A badge is drawn only for a score that is present. */
  function Badge(score: Option<real>): (r: Option<Tier>)
    ensures r.Some? <==> score.Some?
    ensures r.Some? ==> r.value == ConfidenceTier(score.value)
  {
    match score
    case None => None
    case Some(s) => Some(ConfidenceTier(s))
  }

  // ------------------------------------------------------------ one coin

  datatype MarketRow = MarketRow(icon: MarketplaceIcon, badge: Option<Tier>, value: string, url: string)

  const ShowTrend := "Show 12-Month Price Trend"
  const HideTrend := "Hide 12-Month Price Trend"

  /** What one coin card shows; `toggleLabel` is the chart button's text, if the button is there. */
  datatype CoinCard = CoinCard(
    badge: Option<Tier>,
    markets: seq<MarketRow>,
    toggleLabel: Option<string>,
    chart: Option<PriceChart.ChartView>)

  predicate HasHistoricalData(a: CoinAnalysis)
  {
    |a.historicalValues| > 1
  }

  /** One marketplace link: its logo, its badge, the quoted value and the listing URL. */
  function MarketRowFor(m: MarketplaceValue): (row: MarketRow)
    ensures row.icon == GetMarketplaceIcon(m.marketplace) && row.badge == Badge(m.valueConfidence)
    ensures row.value == m.value && row.url == m.url
  {
    MarketRow(GetMarketplaceIcon(m.marketplace), Badge(m.valueConfidence), m.value, m.url)
  }

  /** `CoinResult` for a given `showChart` state. */
  function CoinResult(a: CoinAnalysis, showChart: bool, key: MonthKey): (c: CoinCard)
    ensures c.badge == Badge(a.confidenceScore)
    ensures c.toggleLabel.Some? <==> HasHistoricalData(a)
    ensures c.toggleLabel.Some? ==> c.toggleLabel.value == (if showChart then HideTrend else ShowTrend)
    ensures c.chart.Some? <==> HasHistoricalData(a) && showChart
    ensures c.chart.Some? ==> c.chart.value == PriceChart.Render(a.historicalValues, key)
    ensures |c.markets| == |a.marketValues|
    ensures forall i :: 0 <= i < |a.marketValues| ==> c.markets[i] == MarketRowFor(a.marketValues[i])
  {
    var mv := a.marketValues;
    var has := HasHistoricalData(a);
    CoinCard(Badge(a.confidenceScore), seq(|mv|, i requires 0 <= i < |mv| => MarketRowFor(mv[i])),
             if has then Some(if showChart then HideTrend else ShowTrend) else None,
             if has && showChart then Some(PriceChart.Render(a.historicalValues, key)) else None)
  }

  /** The chart button flips `showChart`. */
  function ToggleChart(showChart: bool): (r: bool)
    ensures r != showChart
  {
    !showChart
  }

  /** A chart opened from a coin card always has data to draw: the placeholder never appears there. */
  lemma OpenedChartIsDrawn(a: CoinAnalysis, key: MonthKey)
    requires HasHistoricalData(a)
    ensures CoinResult(a, true, key).chart.Some?
    ensures CoinResult(a, true, key).chart.value.Chart?
    ensures CoinResult(a, false, key).chart.None?
    ensures CoinResult(a, ToggleChart(ToggleChart(true)), key) == CoinResult(a, true, key)
  {
  }

  // --------------------------------------------------------- one record

  /** `"Coin"` for one, `"Coins"` for more. */
  function CoinNoun(n: nat): (w: string)
    requires n >= 1
    ensures w == "Coin" <==> n == 1
    ensures w == "Coins" <==> n > 1
  {
    "Coin" + (if n > 1 then "s" else "")
  }

  /** What one record shows; all three parts are decided independently. */
  datatype RecordView = RecordView(
    errorPanel: Option<string>,
    heading: Option<string>,
    coins: seq<CoinAnalysis>,
    noCoinsNotice: bool)

  /** The record at position `index` (shown as image `index + 1`). */
  function ShowRecord(r: DisplayableResult, index: nat): (v: RecordView)
    ensures v.errorPanel.Some? <==> r.error.Some? && r.error.value != ""
    ensures v.errorPanel.Some? ==> v.errorPanel == r.error
    ensures v.heading.Some? <==> r.analyses.Some? && |r.analyses.value| > 0
    ensures v.heading.Some? ==> (v.heading.value ==
              "Found " + DecimalString(|r.analyses.value|) + " " + CoinNoun(|r.analyses.value|)
              + " in Image " + DecimalString(index + 1))
    ensures v.coins == (if r.analyses.Some? then r.analyses.value else [])
    ensures v.noCoinsNotice <==> r.analyses == Some([])
  {
    var errorPanel := if r.error.Some? && r.error.value != "" then r.error else None;
    match r.analyses
    case None => RecordView(errorPanel, None, [], false)
    case Some(list) =>
      var n := |list|;
      RecordView(errorPanel,
                 if n > 0 then Some("Found " + DecimalString(n) + " " + CoinNoun(n) + " in Image " + DecimalString(index + 1)) else None,
                 list,
                 n == 0)
  }

  /** How many of the three panels a record shows. */
  function PanelCount(v: RecordView): nat
  {
    (if v.errorPanel.Some? then 1 else 0) + (if v.heading.Some? then 1 else 0) + (if v.noCoinsNotice then 1 else 0)
  }

  /**
   * A record with analyses and no error shows exactly one panel; a record with
   * a non-empty error and no analyses shows exactly the error; a pending
   * record shows none.
   */
  lemma OnePanelPerSettledRecord(r: DisplayableResult, index: nat)
    ensures r.analyses.Some? && r.error.None? ==> PanelCount(ShowRecord(r, index)) == 1
    ensures r.analyses.None? && r.error.Some? && r.error.value != "" ==>
              PanelCount(ShowRecord(r, index)) == 1 && ShowRecord(r, index).errorPanel == r.error
    ensures r.analyses.None? && r.error.None? ==> PanelCount(ShowRecord(r, index)) == 0
  {
  }

  /** `ResultsDisplay`: one view per record, in order. */
  function ShowResults(results: seq<DisplayableResult>): (vs: seq<RecordView>)
    ensures |vs| == |results|
    ensures forall i :: 0 <= i < |results| ==> vs[i] == ShowRecord(results[i], i)
  {
    seq(|results|, i requires 0 <= i < |results| => ShowRecord(results[i], i))
  }
}

=== FILE: text.dfy ===
/**
 * The string primitives the application relies on: JavaScript's
 * `String.prototype.trim`, `includes`, `toLowerCase` (restricted to ASCII
 * letters) and the decimal rendering of a non-negative integer.
 */
module Text {

  /** The characters `trim` removes: ECMAScript WhiteSpace and LineTerminator. */
  predicate IsJsWhitespace(c: char)
  {
    || c == '\t' || c == '\U{000B}' || c == '\U{000C}' || c == ' '
    || c == '\U{00A0}' || c == '\U{FEFF}' || c == '\U{1680}'
    || ('\U{2000}' <= c <= '\U{200A}')
    || c == '\U{202F}' || c == '\U{205F}' || c == '\U{3000}'
    || c == '\n' || c == '\r' || c == '\U{2028}' || c == '\U{2029}'
  }

  predicate AllWhitespace(s: string)
  {
    forall i :: 0 <= i < |s| ==> IsJsWhitespace(s[i])
  }

  /** Drops the leading whitespace of `s`. */
  function TrimStart(s: string): (r: string)
    ensures |r| <= |s| && r == s[|s| - |r|..]
    ensures AllWhitespace(s[..|s| - |r|])
    ensures r == [] || !IsJsWhitespace(r[0])
    decreases |s|
  {
    if |s| > 0 && IsJsWhitespace(s[0]) then
      var r := TrimStart(s[1..]);
      TrimStartStep(s, r);
      r
    else s
  }

  /** Dropping one more leading whitespace character keeps the dropped prefix all whitespace. */
  lemma TrimStartStep(s: string, r: string)
    requires |s| > 0 && IsJsWhitespace(s[0])
    requires |r| <= |s| - 1 && r == s[1..][|s| - 1 - |r|..] && AllWhitespace(s[1..][..|s| - 1 - |r|])
    ensures r == s[|s| - |r|..] && AllWhitespace(s[..|s| - |r|])
  {
    var k := |s| - |r|;
    assert s[1..][k - 1..] == s[k..];
    forall i | 0 <= i < k
      ensures IsJsWhitespace(s[..k][i])
    {
      if i > 0 {
        assert s[..k][i] == s[1..][..k - 1][i - 1];
      }
    }
  }

  /** Drops the trailing whitespace of `s`. */
  function TrimEnd(s: string): (r: string)
    ensures |r| <= |s| && r == s[..|r|]
    ensures AllWhitespace(s[|r|..])
    ensures r == [] || !IsJsWhitespace(r[|r| - 1])
    decreases |s|
  {
    if |s| > 0 && IsJsWhitespace(s[|s| - 1]) then TrimEnd(s[..|s| - 1]) else s
  }

  /** `s.trim()`: the longest infix of `s` that neither starts nor ends with whitespace. */
  function Trim(s: string): (r: string)
    ensures exists k :: OccursAt(s, r, k) && AllWhitespace(s[..k]) && AllWhitespace(s[k + |r|..])
    ensures r == [] || (!IsJsWhitespace(r[0]) && !IsJsWhitespace(r[|r| - 1]))
  {
    var a := TrimStart(s);
    var r := TrimEnd(a);
    TrimSplit(s, a, r);
    r
  }

  /** After both trims, `s` is leading whitespace, then `r`, then trailing whitespace. */
  lemma TrimSplit(s: string, a: string, r: string)
    requires |a| <= |s| && a == s[|s| - |a|..] && AllWhitespace(s[..|s| - |a|])
    requires |r| <= |a| && r == a[..|r|] && AllWhitespace(a[|r|..])
    ensures OccursAt(s, r, |s| - |a|)
    ensures AllWhitespace(s[..|s| - |a|]) && AllWhitespace(s[|s| - |a| + |r|..])
  {
    var k := |s| - |a|;
    assert a == s[k..];
    assert r == a[..|r|];
    assert s[k..k + |r|] == r;
    assert s[k + |r|..] == a[|r|..];
  }

  lemma {:induction false} TrimStartOfWhitespace(s: string)
    requires AllWhitespace(s)
    ensures TrimStart(s) == []
    decreases |s|
  {
    if |s| > 0 {
      TrimStartOfWhitespace(s[1..]);
    }
  }

  /** Leading whitespace is consumed; once a visible character is met the rest is kept. */
  lemma {:induction false} TrimStartAppend(x: string, y: string)
    ensures AllWhitespace(x) ==> TrimStart(x + y) == TrimStart(y)
    ensures !AllWhitespace(x) ==> TrimStart(x + y) == TrimStart(x) + y
    decreases |x|
  {
    if |x| > 0 {
      assert (x + y)[0] == x[0];
      assert (x + y)[1..] == x[1..] + y;
      if IsJsWhitespace(x[0]) {
        TrimStartAppend(x[1..], y);
        if !AllWhitespace(x) {
          var i :| 0 <= i < |x| && !IsJsWhitespace(x[i]);
          assert !IsJsWhitespace(x[1..][i - 1]);
        }
      }
    } else {
      assert x + y == y;
    }
  }

  lemma {:induction false} TrimEndAppendWhitespace(x: string, b: string)
    requires AllWhitespace(b)
    ensures TrimEnd(x + b) == TrimEnd(x)
    decreases |b|
  {
    if |b| == 0 {
      assert x + b == x;
    } else {
      var xb := x + b;
      assert xb[|xb| - 1] == b[|b| - 1];
      assert xb[..|xb| - 1] == x + b[..|b| - 1];
      TrimEndAppendWhitespace(x, b[..|b| - 1]);
    }
  }

  /** Text made only of whitespace, followed by more whitespace, trims to nothing at the front. */
  lemma TrimStartOfPaddedWhitespace(s: string, b: string)
    requires AllWhitespace(s) && AllWhitespace(b)
    ensures TrimStart(s + b) == [] && TrimStart(s) == []
  {
    TrimStartAppend(s, b);
    TrimStartOfWhitespace(s);
    TrimStartOfWhitespace(b);
  }

  /** Whitespace around a text never changes what `trim` returns. */
  lemma TrimIgnoresPadding(a: string, s: string, b: string)
    requires AllWhitespace(a) && AllWhitespace(b)
    ensures Trim(a + s + b) == Trim(s)
  {
    assert TrimStart(a + s + b) == TrimStart(s + b) by {
      assert a + s + b == a + (s + b);
      TrimStartAppend(a, s + b);
    }
    assert TrimEnd(TrimStart(s + b)) == TrimEnd(TrimStart(s)) by {
      if AllWhitespace(s) {
        TrimStartOfPaddedWhitespace(s, b);
      } else {
        TrimStartAppend(s, b);
        TrimEndAppendWhitespace(TrimStart(s), b);
      }
    }
  }

  /** `sub` occurs in `s` starting at position `i`. */
  predicate OccursAt(s: string, sub: string, i: int)
  {
    0 <= i <= |s| - |sub| && s[i..i + |sub|] == sub
  }

  predicate StartsWith(s: string, prefix: string)
  {
    |prefix| <= |s| && s[..|prefix|] == prefix
  }

  /** `s.includes(sub)`, computed by scanning start positions left to right. */
  predicate Contains(s: string, sub: string)
    decreases |s|
  {
    StartsWith(s, sub) || (|s| > 0 && Contains(s[1..], sub))
  }

  /** The scan agrees with the positional definition of an occurrence. */
  lemma {:induction false} ContainsIffOccurrence(s: string, sub: string)
    ensures Contains(s, sub) <==> exists i :: OccursAt(s, sub, i)
    decreases |s|
  {
    if |s| > 0 {
      ContainsIffOccurrence(s[1..], sub);
      if Contains(s[1..], sub) {
        var i :| OccursAt(s[1..], sub, i);
        assert s[i + 1..i + 1 + |sub|] == s[1..][i..i + |sub|];
        assert OccursAt(s, sub, i + 1);
      }
      if exists i :: OccursAt(s, sub, i) {
        var i :| OccursAt(s, sub, i);
        if i > 0 {
          assert s[1..][i - 1..i - 1 + |sub|] == s[i..i + |sub|];
          assert OccursAt(s[1..], sub, i - 1);
        } else {
          assert StartsWith(s, sub);
        }
      }
    }
    if StartsWith(s, sub) {
      assert OccursAt(s, sub, 0);
    }
    if |s| == 0 && exists i :: OccursAt(s, sub, i) {
      var i :| OccursAt(s, sub, i);
      assert StartsWith(s, sub);
    }
  }

  function LowerChar(c: char): char
  {
    if 'A' <= c <= 'Z' then (c as int + 32) as char else c
  }

  /** `s.toLowerCase()` on ASCII letters. */
  function ToLower(s: string): (r: string)
    ensures |r| == |s|
    ensures forall i :: 0 <= i < |s| ==> r[i] == LowerChar(s[i])
  {
    seq(|s|, i requires 0 <= i < |s| => LowerChar(s[i]))
  }

  function DigitChar(d: nat): char
    requires d < 10
  {
    "0123456789"[d]
  }

  function DigitValue(c: char): nat
  {
    if '0' <= c <= '9' then c as nat - '0' as nat else 0
  }

  predicate IsDigit(c: char)
  {
    '0' <= c <= '9'
  }

  /** The value of a string of decimal digits. */
  function ParseDecimal(s: string): nat
  {
    if |s| == 0 then 0 else ParseDecimal(s[..|s| - 1]) * 10 + DigitValue(s[|s| - 1])
  }

  /** `n.toString()` for a non-negative integer: its decimal digits without leading zeros. */
  function DecimalString(n: nat): (r: string)
    ensures |r| >= 1 && forall i :: 0 <= i < |r| ==> IsDigit(r[i])
    ensures r[0] == '0' ==> n == 0
    decreases n
  {
    if n < 10 then [DigitChar(n)] else DecimalString(n / 10) + [DigitChar(n % 10)]
  }

  lemma {:induction false} DecimalStringRoundTrip(n: nat)
    ensures ParseDecimal(DecimalString(n)) == n
    decreases n
  {
    var r := DecimalString(n);
    if n >= 10 {
      DecimalStringRoundTrip(n / 10);
      assert r[..|r| - 1] == DecimalString(n / 10);
    }
  }
}

=== FILE: types.dfy ===
/**
 * The record shapes of the application. Optional fields (`?:` and `| null`)
 * are `Option`s; numbers that carry fractions are `real`.
 */
module Types {
  import opened Wrappers

  /** One marketplace's price estimate; `value` is free text such as "$5 - $10". */
  datatype MarketplaceValue = MarketplaceValue(
    marketplace: string,
    url: string,
    value: string,
    valueConfidence: Option<real>)

  /** One month of the price trend; `date` is written "YYYY-MM". */
  datatype HistoricalValue = HistoricalValue(date: string, value: real)

  datatype CoinAnalysis = CoinAnalysis(
    coinType: string,
    year: int,
    mintMark: string,
    condition: string,
    description: string,
    marketValues: seq<MarketplaceValue>,
    historicalValues: seq<HistoricalValue>,
    confidenceScore: Option<real>)

  /** A browser `File`: the image bytes and the MIME type the upload reported. */
  datatype File = File(name: string, mimeType: string, content: seq<bv8>)

  /**
   * One selected image and what became of it: `analyses` is `None` while
   * pending and after a failure, `error` is set only after a failure.
   */
  datatype AnalysisResult = AnalysisResult(
    imageUrl: string,
    analyses: Option<seq<CoinAnalysis>>,
    error: Option<string>,
    file: File)

  /** What the results panel shows: an `AnalysisResult` without its `file`. */
  datatype DisplayableResult = DisplayableResult(
    imageUrl: string,
    analyses: Option<seq<CoinAnalysis>>,
    error: Option<string>)

  /** A stored result: no `file` and no object URL, but a self-contained data URL. */
  datatype SavedAnalysisResult = SavedAnalysisResult(
    analyses: Option<seq<CoinAnalysis>>,
    error: Option<string>,
    imageDataUrl: string)

  /** One persisted batch; `date` is a timestamp in milliseconds. */
  datatype AnalysisSession = AnalysisSession(
    id: string,
    date: int,
    results: seq<SavedAnalysisResult>)
}

=== FILE: wrappers.dfy ===
/** Optional values and success/failure results shared by every module. */
module Wrappers {

  /** A value that may be absent: `null`/`undefined` in the application. */
  datatype Option<+T> = None | Some(value: T) {

    function GetOr(default: T): (r: T)
      ensures Some? ==> r == value
      ensures None? ==> r == default
    {
      match this
      case Some(v) => v
      case None => default
    }
  }

  /** The outcome of an operation that either returns a value or throws. */
  datatype Result<+R, +E> = Success(value: R) | Failure(error: E)
}
